=== FILE: README.md ===
# discord-bot bookkeeping, modelled in Dafny

This project models the bookkeeping layer of a small Discord bot (with a Reddit moderation poller and
an image-search command). It covers:

- the durable TOML cache (`Cache::from_file`, `Cache::with`);
- the SQLite operations: user presence upserts, the message store with keep-newest-K eviction,
  replace-the-set sticky roles, `gib_seen` history and `reddit_seen` check-then-mark;
- the schema migration runner;
- the in-memory message ring buffer and the event handlers that use it (message, update, delete,
  member update and re-join with sticky roles, nick changes, log-channel selection);
- the command gate (`before`), the error replies and the channel blacklist/whitelist rule;
- the Reddit poller's `check_sub` decision, its notification tables and the `spawn` guard;
- the `gib` command's alias resolution, query and link composition and reply choice.

Everything is pure. SQL tables are maps or sets, and time is a caller-supplied logical timestamp
(`History.Time`). Serialisers, parsers, HTTP fetches and random numbers are parameters.

Files: `base.dfy` (Option/Result, helpers), `decimal.dfy` (`to_string`/`u64::from_str` on ids),
`history.dfy` (keep-newest-K eviction), `types.dfy` (platform records), `cache.dfy`,
`operations.dfy`, `migrations.dfy`, `gating.dfy` (modules `Util` and `Discord`), `eventhandler.dfy`,
`reddit.dfy`, `derp.dfy`.

Behaviour of the code worth noting:

- A stored schema version above the latest is not an error. The loop runs no step and returns
  `Ok((initial, MIGRATION_STEPS - 1))`.
- The keep-newest-K eviction is global per table. It is not split into pools.
- `Cache::with` keeps `fun`'s mutation in memory even when serialising or writing the file then
  fails. The in-memory content and the file can then disagree.

"Keep the newest K rows" is specified as a relation (`History.KeepsNewest`), because SQLite's
choice among rows with equal `time` is not fixed. `History.KeepNewest` is one deterministic
method that satisfies it.

## Model

| member | source | states |
|---|---|---|
| Base.Coalesce | src/db/operations.rs:14 | `COALESCE(x, now)`: a stored value is kept, a missing one becomes the fallback |
| Base.ChooseOrEmpty | src/discord.rs:71-73 | a random choice from a list is one of its entries, or "" when the list is empty |
| Decimal.ToDecimal | src/db/operations.rs:187 | an id's text is a non-empty digit string with no leading zero |
| Decimal.ParseU64 | src/db/operations.rs:234 | `parse()` accepts only an optional '+' followed by at least one digit with a value below 2^64; every such text parses, with or without the '+', and gives exactly that digit value |
| Decimal.ParseU64Edges | src/db/operations.rs:234 | "", a lone "+" and a leading '-' are rejected, and "+7" reads as 7 |
| Decimal.DigitsValueOfDecimal | src/db/operations.rs:187 | the digits written for n have value n |
| Decimal.ParseOfDecimal | src/db/operations.rs:234 | reading back the text of any u64 gives the same number (round trip of `to_string`/`parse`) |
| Decimal.DecimalInjective | src/db/operations.rs:187 | distinct ids have distinct texts |
| History.Oldest | src/db/operations.rs:252-256 | the row the eviction query drops first: a key whose time is minimal in the table |
| History.KeepNewest | src/db/operations.rs:249-261 | keep-newest-K: at most K rows remain, all from the table and unchanged, min(K, size) of them, and no kept row is older than a dropped one |
| History.Record | src/db/operations.rs:238-261 | insert-or-replace then evict: the result is a keep-newest-K of the table with the row replaced, has at most K rows, does not grow when the key existed, and keeps the new row when K > 0 and it is strictly newest |
| History.NewestSurvives | src/db/operations.rs:252-256 | with K > 0, a row strictly newer than every other row is kept |
| History.EvictionRespectsAge | src/db/operations.rs:252-256 | when a row is kept, every strictly newer row is kept too |
| History.ExampleCapacityTwo | src/db/operations.rs:249-261 | with rows at times 1, 2, 3 and K = 2, exactly the two newest rows remain |
| DurableCache.FromFile | src/cache.rs:39-57 | an open error is an I/O error; an empty file gives the default content; a non-empty file loads exactly when it parses, and a parse failure is a read error; a loaded file's content is the parsed document with its missing fields defaulted, and the file's bytes are kept |
| DurableCache.With | src/cache.rs:59-74 | the mutation always stays in memory; a serialisation, seek or truncate failure leaves the file as it was; success exactly when serialisation and every write succeed, and then the file holds the serialised content and the caller gets `fun`'s result; a short write leaves a prefix of the data |
| DurableCache.DefaultsOfComplete | src/cache.rs:23-29 | a document with every field present loads as exactly those fields |
| DurableCache.MissingFieldsDefault | src/cache.rs:23-29 | each missing field loads as an empty collection, and each present field loads as given |
| DurableCache.WithThenReload | src/cache.rs:59-74 | after a successful `with`, reloading the file gives back the in-memory content, provided the serialiser and parser agree |
| DurableCache.SerialisationFailureKeepsFile | src/cache.rs:66 | when serialisation fails, the file still loads as it did before, while memory holds the mutated content |
| Db.UserOnline | src/db/operations.rs:7-39 | upsert: the user and the name row exist afterwards with last-online = now; in both tables a new row starts with both times = now and an existing row's first-online becomes `COALESCE(first_online, now)`; message times and other rows are untouched |
| Db.UserOfflineAsWritten | src/db/operations.rs:65-89 | the statement as written can never add a row, because every insert violates NOT NULL and is ignored |
| Db.UserOfflineRecordsNothing | src/db/operations.rs:68-69 | as written, `user_offline` leaves both tables unchanged for every input |
| Db.UserOffline | src/db/operations.rs:65-89 | corrected: the user and name rows exist afterwards, a new row has no online times, and existing rows are untouched |
| Db.OfflineThenOnline | src/db/operations.rs:14 | a user first seen offline gets first-online = now at the next online event |
| Db.UserMessage | src/db/operations.rs:111-125 | an update of an existing user only: last-message = now, first-message is kept if set, otherwise now; an unknown id changes nothing |
| Db.CacheMessage | src/db/operations.rs:127-155 | a failed JSON encoding is an error; otherwise the table is a keep-newest-K of itself with the message stored as (author, JSON), has at most K rows, and keeps the message when K > 0 and it is strictly newest |
| Db.GetMessage | src/db/operations.rs:157-177 | a missing id is `Ok(None)`; otherwise the stored JSON is decoded and a decode error is reported |
| Db.GetCachedMessage | src/db/operations.rs:127-177 | a stored message reads back as itself when encoding and decoding agree |
| Db.SetStickyRoles | src/db/operations.rs:179-214 | the user's rows become exactly the texts of the given roles; rows of other users are unchanged |
| Db.GetStickyRoles | src/db/operations.rs:216-236 | the user's rows that parse as u64, and nothing else |
| Db.SetThenGetStickyRoles | src/db/operations.rs:179-236 | reading after setting gives exactly the set of roles that were set |
| Db.SetStickyRolesIsolated | src/db/operations.rs:191-200 | setting one user's roles does not change another user's roles |
| Db.EmptyRolesClearUser | src/db/operations.rs:191-200 | setting an empty role list leaves the user with no rows |
| Db.GibSeen | src/db/operations.rs:238-264 | at most `history` rows remain; an existing id is replaced, so the table does not grow; the new id is seen with time now when it is strictly newest |
| Db.GibSeenThenIsSeen | src/db/operations.rs:238-280 | after marking, `gib_is_seen` answers yes for the marked id when the history keeps a row and the id is strictly newest; another id reads as seen only if it was seen before; a zero history forgets everything |
| Db.RedditSeen | src/db/operations.rs:282-294 | every id is present afterwards, existing rows are kept, and nothing else is added |
| Db.RedditContainsUnseen | src/db/operations.rs:296-313 | true exactly when some id is absent from the table, so an empty batch gives false |
| Db.SeenBatchHasNoUnseen | src/db/operations.rs:282-313 | once a batch is marked seen, it contains no unseen id |
| Migrations.MigrateStep | src/db/migrations.rs:7-47 | only step 0 exists, and it creates the users, usernames and nicks tables |
| Migrations.ApplyMigrations | src/db/migrations.rs:49-59 | runs steps from the stored version upward, in order; a version at or past the latest runs nothing and succeeds; success returns (initial, latest) with the version at the latest and the schema matching it; a step error is reported only for a step that failed, with the version before it; a version-write error only for a step that succeeded, with its tables created and the version still before it; when every step and write succeeds the result is success |
| Migrations.StepsCompose | src/db/migrations.rs:55-58 | running steps a..v and then v..w builds the same schema as running a..w |
| Migrations.MigrateTwice | src/db/migrations.rs:49-59 | migrating an already migrated database runs no step and changes nothing; when no step or write fails, both runs succeed |
| Util.CanRespondToFollowsChannel | src/util.rs:10-12 | `can_respond_to` is the channel rule applied to the message's channel, so two messages in one channel get the same answer |
| Util.CanTalkInCases | src/util.rs:4-8 | a blacklisted channel is never allowed; with an empty whitelist every other channel is; otherwise exactly the whitelisted channels not blacklisted are |
| Discord.Before | src/discord.rs:34-63 | anything but a cached guild channel passes; a guild channel passes exactly when the bot's permissions are known, include send-messages, and the channel rule allows the channel |
| Discord.Reason | src/discord.rs:89-99 | each named dispatch error gets its reason, and every other error gets the not-valid reason |
| Discord.DispatchErrorReply | src/discord.rs:100-108 | the reply starts with the reason followed by a space |
| Discord.AfterReply | src/discord.rs:64-77 | only a failed command gets a reply, which is the not-valid text plus an insult |
| Discord.UnrecognisedReply | src/discord.rs:78-87 | the reply starts with the not-a-command text |
| Discord.GateAgreesWithChannelRule | src/discord.rs:38-41 | with send permission, the gate's decision is exactly `can_talk_in` |
| Discord.ReasonsDistinct | src/discord.rs:89-99 | the four named errors have pairwise distinct reasons |
| EventHandler.InsertMessage | src/discord_eventhandler.rs:66-68 | the new message goes in front, the rest is the old cache cut so that at most `capacity` messages remain |
| EventHandler.InsertAllNewestFirst | src/discord_eventhandler.rs:66-68 | after any sequence of messages, the cache is the newest ones, newest first, cut at the capacity |
| EventHandler.FindIndex | src/discord_eventhandler.rs:75 | the first position holding the id, or none when no message has it |
| EventHandler.Lookup | src/discord_eventhandler.rs:97 | a message is found exactly when one with that id is cached, and it is the first cached message with that id |
| EventHandler.InsertThenLookup | src/discord_eventhandler.rs:66-68 | with capacity > 0, a just inserted message is found |
| EventHandler.ExampleCapacityThree | src/discord_eventhandler.rs:66-68 | four distinct messages into a cache of three keep the last three, newest first, and the first is gone |
| EventHandler.Patch | src/discord_eventhandler.rs:78-86 | content, attachments and edit time are replaced when the update carries them; everything else is kept |
| EventHandler.ApplyUpdate | src/discord_eventhandler.rs:71-88 | only the first message with the id is patched, the others and the order are unchanged; an unknown id changes nothing |
| EventHandler.UpdateThenLookup | src/discord_eventhandler.rs:71-88 | after an update, the message is found patched, and a missing one stays missing |
| EventHandler.FirstIndexUnique | src/discord_eventhandler.rs:75 | the first position holding an id is exactly the one `find` returns |
| EventHandler.OnMessage | src/discord_eventhandler.rs:49-69 | the message is always cached; an insult is sent exactly when the bot may talk in the channel, is mentioned and has insults |
| EventHandler.LogChannels | src/discord_eventhandler.rs:12-30 | the configured log channels whose cached channel belongs to the guild, and no others |
| EventHandler.LogChannelsOfDistinctGuildsDisjoint | src/discord_eventhandler.rs:12-30 | two different guilds never share a log channel |
| EventHandler.MessageDelete | src/discord_eventhandler.rs:90-134 | a delete in a log channel is ignored; an unavailable channel logs nothing; otherwise the delete is logged exactly when the message is cached, with that message, to the guild's log channels |
| EventHandler.LogTargetDeleteIgnored | src/discord_eventhandler.rs:90-93 | a delete in one of a guild's log channels is ignored, whatever the cache holds |
| EventHandler.EvictedDeleteIsUnknown | src/discord_eventhandler.rs:66-68 | a message pushed out by `capacity` newer ones can no longer be logged on delete |
| EventHandler.StoreStickyRoles | src/discord_eventhandler.rs:200-204 | an empty set removes the user's entry, otherwise it replaces it; other users are unchanged and no empty entry is created |
| EventHandler.RolesToRestore | src/discord_eventhandler.rs:152-157 | the stored set for the user, or nothing when there is no entry |
| EventHandler.DetectNickChange | src/discord_eventhandler.rs:190-213 | a nick change is reported exactly when the previous member is known and the nick, or the name when there is no nick, differs; it goes to the guild's log channels |
| EventHandler.NickToOwnNameReportsNothing | src/discord_eventhandler.rs:190-213 | setting a nick equal to one's own name, from no nick, reports nothing |
| EventHandler.NickChangeSwaps | src/discord_eventhandler.rs:190-213 | a change in one direction is reported exactly when the reverse change is, with before and after swapped and the same log channels |
| EventHandler.GuildMemberUpdate | src/discord_eventhandler.rs:184-230 | the stored sticky roles become the member's roles that are configured as sticky; other users and the other cache fields are unchanged; the cache stays free of empty entries; the new content is written to the file when nothing fails, and a failed serialisation leaves the file as it was; the nick report does not depend on the write |
| EventHandler.GuildMemberAddition | src/discord_eventhandler.rs:136-162 | the roles to restore are the stored ones; the content is unchanged and is written back |
| EventHandler.RejoinRestoresStickyRoles | src/discord_eventhandler.rs:136-230 | a member who leaves and rejoins gets back exactly their sticky roles from the last update |
| EventHandler.RestartKeepsStickyRoles | src/discord_eventhandler.rs:136-230 | when the update's write succeeds, the file reloads after a restart with the same content, and a rejoining member then gets back exactly the sticky roles of that update |
| Reddit.ParseListingObject | src/reddit.rs:126-133 | any reply text parses as the default listing: kind "Listing", no children, no paging |
| Reddit.ContainsUnseen | src/reddit.rs:193-202 | true exactly when some child's id was not seen before the call; afterwards every child's id is seen |
| Reddit.ContainsUnseenTwice | src/reddit.rs:193-202 | asking twice about the same listing gives no on the second time |
| Reddit.FlattenAppend | src/reddit.rs:241-246 | flattening keeps inbox order: it distributes over concatenation |
| Reddit.FlattenMembership | src/reddit.rs:241-246 | a child is among the flattened replies exactly when some inbox message lists it as a reply |
| Reddit.CheckSub | src/reddit.rs:204-253 | a failed fetch aborts with its error, and ids marked before it stay marked; on success each class fires exactly when its check found an id unseen at that moment, and the reply check is skipped when there are no replies |
| Reddit.Classes | src/reddit.rs:210-252 | the reported set holds each class exactly when its check found something, and no other value |
| Reddit.CheckSubMarksAll | src/reddit.rs:222-249 | a successful check marks every modqueue, inbox and reply id as seen |
| Reddit.CheckSubReports | src/reddit.rs:222-249 | each class fires exactly when its listing has an id not yet marked when it is checked |
| Reddit.CheckSubTwiceReportsNothing | src/reddit.rs:204-253 | checking the same listings again reports nothing (exactly-once reporting) |
| Reddit.InboxFailureLosesModqueue | src/reddit.rs:222-235 | when the inbox fetch fails, new modqueue items are marked but never reported |
| Reddit.Url | src/reddit.rs:76-87 | the modqueue link for the modqueue class, the modmail inbox link for both modmail classes |
| Reddit.UrlRoundTrip | src/reddit.rs:76-87 | the subreddit can be read back from its link |
| Reddit.ModmailClassesShareLinkAndColour | src/reddit.rs:68-95 | the two modmail classes share link and colour but not title, and the modqueue class differs in link and colour |
| Reddit.IntervalSeconds | src/reddit.rs:316 | `60 * check_interval` when it fits in u64; otherwise a value below 2^64 congruent to it modulo 2^64, which is exactly the wrapped u64 product |
| Reddit.HugeIntervalWrapsToZero | src/reddit.rs:316-322 | an interval of 2^62 minutes wraps to 0 seconds, so the poller refuses to start as if the interval were under a minute |
| Reddit.Spawn | src/reddit.rs:306-322 | disabled is refused first; otherwise the poller starts exactly when the interval is at least 60 seconds, which without wrap-around means a non-zero interval |
| Derp.FindAlias | src/commands/derp.rs:26-30 | the first entry, in iteration order, whose alias set contains the argument, or none when no set contains it |
| Derp.ResolveTag | src/commands/derp.rs:26-31 | the argument itself when no alias set contains it, otherwise the key of an entry whose set contains it |
| Derp.ResolveTagOrderIndependent | src/commands/derp.rs:26-31 | when every entry listing the argument has the same key, the result does not depend on the map's iteration order |
| Derp.ReplaceChar | src/commands/derp.rs:34 | `replace` of one character: the same length, each occurrence of `from` becomes `to`, every other character is kept |
| Derp.ReplaceCharRoundTrip | src/commands/derp.rs:34 | replacing `from` by `to` and back restores any text in which `to` did not occur |
| Derp.ReplaceSpaces | src/commands/derp.rs:34 | the same length as the tag, each space becomes '+' and every other character is kept |
| Derp.RestoreSpaces | src/commands/derp.rs:34 | each '+' becomes a space and every other character is kept; on a tag without '+' this inverts the replacement |
| Derp.ReplaceSpacesLeavesNoSpace | src/commands/derp.rs:34 | no space survives the replacement |
| Derp.SpacesRoundTrip | src/commands/derp.rs:34 | a tag without '+' is recovered from its replaced form |
| Derp.JoinAppend | src/commands/derp.rs:37 | joining two non-empty lists is joining each and putting one separator between |
| Derp.Search | src/commands/derp.rs:33-39 | no filter tags give the replaced tag; otherwise the filter tags are joined by " AND ", parenthesised and ANDed with the parenthesised replaced tag |
| Derp.SearchCarriesTag | src/commands/derp.rs:33-39 | the tag part of the query is the replaced tag, so it has no space, and a tag without '+' can be read back |
| Derp.SearchLink | src/commands/derp.rs:41-45 | the link starts with the search endpoint and ends with the query |
| Derp.SearchLinkInjective | src/commands/derp.rs:41-45 | the link determines its seed, filter and query |
| Derp.ChooseReply | src/commands/derp.rs:51-70 | no results give a not-found reply; otherwise an embed whose description is a found text, whose link is the image page, and whose image is "http:" + the first result's medium rendition |
| Derp.FoundLinkNamesFirstResult | src/commands/derp.rs:67 | the embed's link names the first result's id, which parses back from the link |
| Derp.OnlyFirstResultMatters | src/commands/derp.rs:62 | results that agree on the first entry give the same reply |
| Derp.Gib | src/commands/derp.rs:24-72 | a failed fetch fails the command; otherwise the reply is chosen from the results of the link built from the resolved tag |
| Derp.AliasSearchesAsTag | src/commands/derp.rs:26-45 | an alias and the tag it stands for run the same search and get the same reply |

## Left out

- HTTP, OAuth and the Reddit client: the listings, search results and channel lookups are inputs.
- Discord I/O: sending, reacting, embeds, `ready`, the pizza/pineapple reactions (they rely on Unicode `to_lowercase`) and `src/commands/pin.rs`.
- Threads and timing: the polling loop, `sleep`, `RwLock` and the two-lock interleaving in `Cache::with`, which is modelled as one atomic step.
- TOML, serde and JSON: opaque serialiser and parser functions. SQLite itself, `rarray`, `datetime('now')` and the tables whose schema is not shown: plain maps and sets with a caller-supplied time.
- `member_online`, `member_offline` and the `nicks` table: they repeat `user_online`/`user_offline` for nicks.
- Username and discriminator CHECK constraints and the `{:04}` discriminator formatting: a name row is keyed by the user's raw fields.
- Db.GetStickyRoles: returns a set, so the order and duplicates of the source's `Vec` are not modelled.
- SQL statement failures: every statement is taken to succeed. The source runs its statements one by one with `?` and no transaction, so a failure between two of them leaves a partial update: `gib_seen` and `cache_message` inserted but not evicted, `set_sticky_roles` deleted but not re-inserted.
- Db.GibSeen: the id is a `nat`, not a `u32`, because nothing in the model depends on its width.
- The Reddit `main` loop that sends one embed per class and channel, `apply_embed`, and the guild-member-removal log message.
- EventHandler.DetectNickChange: the previous and current members carry independent user values. In the source both are read through the same shared `Arc<RwLock<User>>` handle (src/discord_eventhandler.rs:190,210), and the platform library's cache update may overwrite that user before the handler runs; if it does, a rename with no nick on either side compares the new name with itself and is never reported, while the model reports it. That library code is not part of this model.
- Reddit.Spawn: the wrap-around of `60 * check_interval` is modelled as a release build computes it (mod 2^64); a debug build would panic on overflow instead.
- Reddit.ModmailClassesShareLinkAndColour: the colours are the platform's named constants, taken as 24-bit values.
- Derp.SearchLink: `Url::parse` and its percent-encoding of the query are not modelled; the link is the formatted text.
- Derp.Gib: the embed's gold colour is not modelled. The filter id and filter tags are parameters, because `src/config.rs` has no `gib.filters` section.
- Text is `seq<char>` with no UTF-8 encoding.

## Findings

| source | as written | input that shows it | evidently intended | confidence | as-written member | corrected member |
|---|---|---|---|---|---|---|
| src/db/operations.rs:65-89 | `INSERT OR IGNORE` puts NULL into `first_online`/`last_online`, which src/db/migrations.rs:17-18,27-28 declare NOT NULL; SQLite's IGNORE drops such a row, so the statement never inserts anything | a user never seen before goes offline: afterwards the users and usernames tables still have no row for them | record the user and name with no online times, so a later `user_online` fills them by COALESCE | medium, not executed | Db.UserOfflineAsWritten | Db.UserOffline |

=== FILE: base.dfy ===
/** Failure-carrying wrappers and small arithmetic helpers shared by every module. */
module Base {

  /** An optional value, standing for Rust's `Option`. */
  datatype Option<+T> = None | Some(value: T) {
    function GetOr(default: T): T {
      match this
      case Some(v) => v
      case None => default
    }
  }

  /** A value or an error, standing for Rust's `Result`. */
  datatype Result<+T, +E> = Ok(value: T) | Err(error: E)

  /** The unit type `()`. */
  datatype Unit = Unit

  function Min(a: nat, b: nat): nat {
    if a <= b then a else b
  }

  function Max(a: nat, b: nat): nat {
    if a <= b then b else a
  }

  /** `COALESCE(x, now)` in SQL: keep a present value, otherwise take the fallback. */
  function Coalesce<T>(x: Option<T>, fallback: T): (r: T)
    ensures x.Some? ==> r == x.value
    ensures x.None? ==> r == fallback
  {
    x.GetOr(fallback)
  }

  /** `rng.choose(&options).map_or("", ...)`: the entry the caller's random `pick` selects, or the
      empty string when there are no options. */
  function ChooseOrEmpty(options: seq<string>, pick: nat): (s: string)
    ensures |options| == 0 ==> s == ""
    ensures |options| > 0 ==> s in options
  {
    if |options| == 0 then "" else options[pick % |options|]
  }
}

=== FILE: cache.dfy ===
/** The durable TOML cache: one aggregate state held in memory and mirrored, as a whole, in one file.
    TOML itself is not modelled: the serialiser and the parser are parameters, the serialiser may fail,
    and the parser yields a `Document` whose fields may each be missing. */
module DurableCache {
  import opened Base
  import opened Types

  type Bytes = seq<bv8>

  /** The aggregate state: a seen-set, a seen-list and a user (decimal id) to role-set map. */
  datatype CacheContent = CacheContent(
    redditSeen: set<string>,
    gibSeen: seq<nat>,
    stickyRoles: map<string, set<RoleId>>)

  /** `CacheContent::default()`: all three parts empty. */
  const Empty: CacheContent := CacheContent({}, [], map[])

  /** What a successful TOML parse gives before serde's per-field defaults are applied. */
  datatype Document = Document(
    redditSeen: Option<set<string>>,
    gibSeen: Option<seq<nat>>,
    stickyRoles: Option<map<string, set<RoleId>>>)

  /** The document a serialisation of `c` describes: every field present. */
  function Complete(c: CacheContent): Document {
    Document(Some(c.redditSeen), Some(c.gibSeen), Some(c.stickyRoles))
  }

  datatype IoError = IoError(code: nat)

  datatype CacheError =
    | Io(io: IoError)
    | TomlRead(reason: string)
    | TomlWrite

  /** `toml::to_string` followed by `as_bytes` (the UTF-8 text); `None` is a serialisation error. */
  type Serializer = CacheContent -> Option<Bytes>
  /** `toml::from_slice`; an `Err` carries the parse error. */
  type Parser = Bytes -> Result<Document, string>

  /** The state of a `Cache`: its in-memory content and the bytes of its file. */
  datatype Store = Store(content: CacheContent, disk: Bytes)

  /** `#[serde(default)]`: a field missing from the document takes the field's default, the empty collection. */
  function WithDefaults(d: Document): CacheContent
  {
    CacheContent(d.redditSeen.GetOr({}), d.gibSeen.GetOr([]), d.stickyRoles.GetOr(map[]))
  }

  /** `Cache::from_file`. The file is opened with `create(true)`, so a missing file reads as empty;
      `file` is what reading it gave. An empty file is the default state, a non-empty one must parse. */
  function FromFile(file: Result<Bytes, IoError>, parse: Parser): (r: Result<Store, CacheError>)
    ensures file.Err? ==> r == Err(Io(file.error))
    ensures file.Ok? && |file.value| == 0 ==> r == Ok(Store(Empty, []))
    ensures file.Ok? && |file.value| > 0 ==> (r.Ok? <==> parse(file.value).Ok?)
    ensures file.Ok? && |file.value| > 0 && parse(file.value).Err? ==>
              r == Err(TomlRead(parse(file.value).error))
    ensures file.Ok? && |file.value| > 0 && parse(file.value).Ok? ==>
              r == Ok(Store(WithDefaults(parse(file.value).value), file.value))
    ensures r.Ok? ==> r.value.disk == file.value
  {
    match file
    case Err(e) => Err(Io(e))
    case Ok(bytes) =>
      if |bytes| > 0 then
        match parse(bytes)
        case Ok(doc) => Ok(Store(WithDefaults(doc), bytes))
        case Err(e) => Err(TomlRead(e))
      else
        Ok(Store(Empty, bytes))
  }

  /** Which of the three file operations of the write-back fails, if any. `WriteFails(n)` means
      `write_all` stopped after `n` bytes. */
  datatype WriteFault = NoFault | SeekFails(e: IoError) | TruncateFails(e: IoError) | WriteFails(written: nat, e: IoError)

  /** `Cache::with`, as one atomic step: run `f` on the content (the result is kept whatever happens next),
      serialise the new content, and only then seek to the start, truncate to zero and write it out. */
  function With<R>(s: Store, f: CacheContent -> (CacheContent, R), ser: Serializer, fault: WriteFault)
    : (r: (Store, Result<R, CacheError>))
    // The mutation by `f` is never rolled back.
    ensures r.0.content == f(s.content).0
    // A failed serialisation leaves the file untouched.
    ensures ser(f(s.content).0).None? ==> r.0.disk == s.disk && r.1 == Err(TomlWrite)
    // A failed seek or truncation leaves the file untouched.
    ensures (fault.SeekFails? || fault.TruncateFails?) ==> r.0.disk == s.disk && r.1.Err?
    // Success: the caller gets exactly `f`'s result and the file holds exactly the new serialisation.
    ensures r.1.Ok? <==> ser(f(s.content).0).Some? && fault.NoFault?
    ensures r.1.Ok? ==> r.1.value == f(s.content).1 && r.0.disk == ser(f(s.content).0).value
    // A failed write leaves a prefix (possibly all) of the new serialisation: the old bytes are gone.
    ensures ser(f(s.content).0).Some? && fault.WriteFails? ==>
              var data := ser(f(s.content).0).value;
              r.0.disk == data[..Min(fault.written, |data|)] && r.1.Err?
  {
    var (content', result) := f(s.content);
    match ser(content')
    case None => (Store(content', s.disk), Err(TomlWrite))
    case Some(data) =>
      match fault
      case NoFault => (Store(content', data), Ok(result))
      case SeekFails(e) => (Store(content', s.disk), Err(Io(e)))
      case TruncateFails(e) => (Store(content', s.disk), Err(Io(e)))
      case WriteFails(n, e) => (Store(content', data[..Min(n, |data|)]), Err(Io(e)))
  }

  /** The serialiser and parser agree: every serialisation is non-empty and parses back to the
      complete document of the content it came from. */
  ghost predicate Faithful(ser: Serializer, parse: Parser) {
    forall c :: ser(c).Some? ==>
      var data := ser(c).value;
      |data| > 0 && parse(data) == Ok(Complete(c))
  }

  /** A complete document loads as exactly the content it describes. */
  lemma DefaultsOfComplete(c: CacheContent)
    ensures WithDefaults(Complete(c)) == c
  {
  }

  /** Fields missing from a non-empty file default to empty collections; present ones load as written. */
  lemma MissingFieldsDefault(bytes: Bytes, parse: Parser)
    requires |bytes| > 0 && parse(bytes).Ok?
    ensures var r := FromFile(Ok(bytes), parse);
      && r.Ok?
      && (parse(bytes).value.redditSeen.None? ==> r.value.content.redditSeen == {})
      && (parse(bytes).value.gibSeen.None? ==> r.value.content.gibSeen == [])
      && (parse(bytes).value.stickyRoles.None? ==> r.value.content.stickyRoles == map[])
      && (parse(bytes).value.redditSeen.Some? ==> r.value.content.redditSeen == parse(bytes).value.redditSeen.value)
      && (parse(bytes).value.gibSeen.Some? ==> r.value.content.gibSeen == parse(bytes).value.gibSeen.value)
      && (parse(bytes).value.stickyRoles.Some? ==> r.value.content.stickyRoles == parse(bytes).value.stickyRoles.value)
  {
  }

  /** Round trip: after a successful `with`, reloading the file yields exactly the new in-memory state. */
  lemma WithThenReload<R>(s: Store, f: CacheContent -> (CacheContent, R), ser: Serializer, parse: Parser)
    requires Faithful(ser, parse)
    requires With(s, f, ser, NoFault).1.Ok?
    ensures FromFile(Ok(With(s, f, ser, NoFault).0.disk), parse) == Ok(With(s, f, ser, NoFault).0)
  {
    var c := f(s.content).0;
    assert ser(c).Some?;
    DefaultsOfComplete(c);
  }

  /** A failed serialisation leaves a file that still reloads as the state before the call,
      even though memory already holds `f`'s mutation. */
  lemma SerialisationFailureKeepsFile<R>(s: Store, f: CacheContent -> (CacheContent, R), ser: Serializer,
                                         parse: Parser, fault: WriteFault)
    requires ser(f(s.content).0).None?
    ensures FromFile(Ok(With(s, f, ser, fault).0.disk), parse) == FromFile(Ok(s.disk), parse)
    ensures With(s, f, ser, fault).0.content == f(s.content).0
  {
  }
}

=== FILE: decimal.dfy ===
/** Decimal text of unsigned integers: Rust's `to_string` and `u64::from_str`.
    Snowflake ids (users, roles, messages) travel through the stores as this text. */
module Decimal {
  import opened Base

  /** 2^64: every Discord id is a `u64`. */
  const U64_LIMIT: nat := 0x1_0000_0000_0000_0000

  predicate IsDigit(c: char) {
    '0' <= c <= '9'
  }

  predicate AllDigits(s: string) {
    forall i :: 0 <= i < |s| ==> IsDigit(s[i])
  }

  function DigitChar(d: nat): (c: char)
    requires d < 10
    ensures IsDigit(c)
  {
    ('0' as int + d) as char
  }

  function DigitValue(c: char): (d: nat)
    requires IsDigit(c)
    ensures d < 10
    ensures DigitChar(d) == c
  {
    c as int - '0' as int
  }

  /** Rendering with no sign and no leading zero (except "0" itself). */
  function ToDecimal(n: nat): (s: string)
    ensures |s| > 0
    ensures AllDigits(s)
    ensures |s| > 1 ==> s[0] != '0'
  {
    if n < 10 then [DigitChar(n)] else ToDecimal(n / 10) + [DigitChar(n % 10)]
  }

  /** The value of a string of digits, most significant first. */
  function DigitsValue(s: string): nat
    requires AllDigits(s)
  {
    if |s| == 0 then 0 else DigitsValue(s[..|s| - 1]) * 10 + DigitValue(s[|s| - 1])
  }

  /** `u64::from_str`: an optional '+', then at least one digit, and a value below 2^64;
      anything else (a '-', a space, an empty string, an overflow) is an error. */
  function ParseU64(s: string): (r: Option<nat>)
    ensures r.Some? ==> r.value < U64_LIMIT
    ensures r.Some? ==>
              || (|s| > 0 && AllDigits(s) && r.value == DigitsValue(s))
              || (|s| > 1 && s[0] == '+' && AllDigits(s[1..]) && r.value == DigitsValue(s[1..]))
    ensures AllDigits(s) && 0 < |s| && DigitsValue(s) < U64_LIMIT ==> r == Some(DigitsValue(s))
    ensures |s| > 1 && s[0] == '+' && AllDigits(s[1..]) && DigitsValue(s[1..]) < U64_LIMIT ==>
              r == Some(DigitsValue(s[1..]))
  {
    var digits := if |s| > 0 && s[0] == '+' then s[1..] else s;
    if |digits| == 0 || !AllDigits(digits) then None
    else
      var v := DigitsValue(digits);
      if v < U64_LIMIT then Some(v) else None
  }

  lemma {:induction false} DigitsValueOfDecimal(n: nat)
    ensures DigitsValue(ToDecimal(n)) == n
  {
    if n >= 10 {
      var s := ToDecimal(n);
      assert s[..|s| - 1] == ToDecimal(n / 10);
      DigitsValueOfDecimal(n / 10);
    }
  }

  /** Parsing the rendering of any `u64` gives the number back. */
  lemma ParseOfDecimal(n: nat)
    requires n < U64_LIMIT
    ensures ParseU64(ToDecimal(n)) == Some(n)
  {
    DigitsValueOfDecimal(n);
  }

  /** Distinct numbers have distinct renderings, so a string key identifies an id. */
  lemma DecimalInjective(a: nat, b: nat)
    ensures ToDecimal(a) == ToDecimal(b) ==> a == b
  {
    DigitsValueOfDecimal(a);
    DigitsValueOfDecimal(b);
  }

  /** The edges of `u64::from_str`: a sign alone, an empty string and a minus sign are rejected, and a
      leading '+' is accepted. */
  lemma ParseU64Edges()
    ensures ParseU64("+") == None && ParseU64("") == None && ParseU64("-1") == None
    ensures ParseU64("+7") == Some(7)
  {
    assert "+7"[1..] == "7";
    assert !IsDigit('-');
  }
}

=== FILE: derp.dfy ===
/** The `gib` command: resolving the argument through the alias table, composing the search query and
    the request link, and choosing the reply from the search results. The HTTP request is the caller's
    `fetch` and the random numbers are the caller's `seed` and `pick`. */
module Derp {
  import opened Base
  import Decimal

  /** `gib.aliases`: each tag with the set of names that stand for it, in the map's iteration order
      (which a hash map does not fix, so every order is a possible input). */
  type Aliases = seq<(string, set<string>)>

  /** The position of the first entry whose alias set contains `args`, as `iter().find` visits them. */
  function FindAlias(aliases: Aliases, args: string): (r: Option<nat>)
    ensures r.Some? ==> r.value < |aliases| && args in aliases[r.value].1
    ensures r.Some? ==> forall j :: 0 <= j < r.value ==> args !in aliases[j].1
    ensures r.None? <==> forall j :: 0 <= j < |aliases| ==> args !in aliases[j].1
    decreases |aliases|
  {
    if |aliases| == 0 then None
    else if args in aliases[0].1 then Some(0)
    else
      match FindAlias(aliases[1..], args)
      case None => None
      case Some(i) => Some(i + 1)
  }

  /** The tag searched for: the key of an alias set containing the whole argument text, or the argument
      itself when no set contains it. */
  function ResolveTag(aliases: Aliases, args: string): (tag: string)
    ensures (forall j :: 0 <= j < |aliases| ==> args !in aliases[j].1) ==> tag == args
    ensures (exists j :: 0 <= j < |aliases| && args in aliases[j].1) ==>
              exists j :: 0 <= j < |aliases| && args in aliases[j].1 && tag == aliases[j].0
  {
    match FindAlias(aliases, args)
    case None => args
    case Some(i) => aliases[i].0
  }

  /** Reordering the map keeps whether some alias set contains `args`. */
  lemma FoundInReordering(aliases: Aliases, reordered: Aliases, args: string)
    requires multiset(reordered) == multiset(aliases)
    ensures FindAlias(aliases, args).Some? ==> FindAlias(reordered, args).Some?
  {
    var r := FindAlias(aliases, args);
    if r.Some? {
      assert aliases[r.value] in multiset(reordered);
    }
  }

  /** When every entry listing `args` agrees on the tag (as with disjoint alias sets), the resolved tag
      does not depend on the order the map is iterated in. */
  lemma ResolveTagOrderIndependent(aliases: Aliases, reordered: Aliases, args: string)
    requires multiset(reordered) == multiset(aliases)
    requires forall i, j :: 0 <= i < |aliases| && 0 <= j < |aliases| && args in aliases[i].1 && args in aliases[j].1
                            ==> aliases[i].0 == aliases[j].0
    ensures ResolveTag(aliases, args) == ResolveTag(reordered, args)
  {
    FoundInReordering(aliases, reordered, args);
    FoundInReordering(reordered, aliases, args);
    var r := FindAlias(reordered, args);
    if r.Some? {
      assert reordered[r.value] in multiset(aliases);
    }
  }

  /** Every occurrence of the character `from` replaced by `to`, everything else kept in place. */
  function ReplaceChar(s: string, from: char, to: char): (r: string)
    ensures |r| == |s|
    ensures forall i :: 0 <= i < |s| ==> r[i] == (if s[i] == from then to else s[i])
  {
    seq(|s|, i requires 0 <= i < |s| => if s[i] == from then to else s[i])
  }

  /** Replacing `from` by `to` and back restores any text in which `to` did not occur. */
  lemma ReplaceCharRoundTrip(s: string, from: char, to: char)
    requires to !in s
    ensures ReplaceChar(ReplaceChar(s, from, to), to, from) == s
  {
    var r := ReplaceChar(ReplaceChar(s, from, to), to, from);
    forall i | 0 <= i < |s|
      ensures r[i] == s[i]
    {
      assert s[i] != to;
    }
  }

  /** `replace(" ", "+")`. */
  function ReplaceSpaces(s: string): (r: string)
    ensures |r| == |s|
    ensures forall i :: 0 <= i < |s| ==> r[i] == (if s[i] == ' ' then '+' else s[i])
  {
    ReplaceChar(s, ' ', '+')
  }

  /** The reverse reading: every '+' back to a space. */
  function RestoreSpaces(s: string): (r: string)
    ensures |r| == |s|
    ensures forall i :: 0 <= i < |s| ==> r[i] == (if s[i] == '+' then ' ' else s[i])
  {
    ReplaceChar(s, '+', ' ')
  }

  /** No space survives the replacement. */
  lemma ReplaceSpacesLeavesNoSpace(s: string)
    ensures ' ' !in ReplaceSpaces(s)
  {
  }

  /** A tag without '+' is recovered from its replaced form; a '+' in the tag would read back as a space. */
  lemma SpacesRoundTrip(s: string)
    requires '+' !in s
    ensures RestoreSpaces(ReplaceSpaces(s)) == s
  {
    ReplaceCharRoundTrip(s, ' ', '+');
  }

  /** `join(sep)`: the parts with `sep` between neighbours. */
  function Join(parts: seq<string>, sep: string): string
    decreases |parts|
  {
    if |parts| == 0 then ""
    else if |parts| == 1 then parts[0]
    else parts[0] + sep + Join(parts[1..], sep)
  }

  /** Joining two non-empty lists is joining each and putting one separator between them. */
  lemma {:induction false} JoinAppend(a: seq<string>, b: seq<string>, sep: string)
    requires |a| > 0 && |b| > 0
    ensures Join(a + b, sep) == Join(a, sep) + sep + Join(b, sep)
    decreases |a|
  {
    if |a| == 1 {
      assert (a + b)[1..] == b;
    } else {
      assert (a + b)[1..] == a[1..] + b;
      JoinAppend(a[1..], b, sep);
    }
  }

  const AND: string := " AND "

  /** The text in front of the tag when the filter has tags. */
  function FilterPrefix(filterTags: seq<string>): string {
    "(" + Join(filterTags, AND) + ") AND ("
  }

  /** The query: the replaced tag alone when the filter has no tags, otherwise the filter tags joined
      by " AND ", parenthesised, ANDed with the parenthesised replaced tag. */
  function Search(filterTags: seq<string>, tag: string): (q: string)
    ensures |filterTags| == 0 ==> q == ReplaceSpaces(tag)
    ensures |filterTags| > 0 ==> q == FilterPrefix(filterTags) + ReplaceSpaces(tag) + ")"
  {
    if |filterTags| == 0 then ReplaceSpaces(tag)
    else FilterPrefix(filterTags) + ReplaceSpaces(tag) + ")"
  }

  /** The tag's part of a query, given the filter tags it was built with. */
  function TagPart(filterTags: seq<string>, q: string): Option<string> {
    if |filterTags| == 0 then Some(q)
    else
      var prefix := FilterPrefix(filterTags);
      if |q| >= |prefix| + 1 && q[..|prefix|] == prefix && q[|q| - 1] == ')'
      then Some(q[|prefix|..|q| - 1])
      else None
  }

  /** The query carries the tag: its tag part is the tag with spaces replaced, so no space of the tag
      reaches the query, and a tag without '+' can be read back exactly. */
  lemma SearchCarriesTag(filterTags: seq<string>, tag: string)
    ensures TagPart(filterTags, Search(filterTags, tag)) == Some(ReplaceSpaces(tag))
    ensures ' ' !in TagPart(filterTags, Search(filterTags, tag)).value
    ensures '+' !in tag ==> RestoreSpaces(TagPart(filterTags, Search(filterTags, tag)).value) == tag
  {
    var q := Search(filterTags, tag);
    var r := ReplaceSpaces(tag);
    if |filterTags| > 0 {
      var prefix := FilterPrefix(filterTags);
      assert q == prefix + r + ")";
      assert q[..|prefix|] == prefix;
      assert q[|prefix|..|q| - 1] == r;
    }
    ReplaceSpacesLeavesNoSpace(tag);
    if '+' !in tag {
      SpacesRoundTrip(tag);
    }
  }

  const LinkPrefix: string := "https://derpibooru.org/search.json?min_score=100&sf=random%3A"
  const FilterField: string := "&perpage=1&filter_id="
  const QueryField: string := "&q="

  /** 2^32: the random sort seed and the filter id are `u32`. */
  const U32_LIMIT: nat := 0x1_0000_0000

  /** The request link: a random sort seeded by `seed`, one result per page, the filter, and the query. */
  function SearchLink(seed: nat, filter: nat, q: string): (link: string)
    requires seed < U32_LIMIT && filter < U32_LIMIT
    ensures |link| > |LinkPrefix| && link[..|LinkPrefix|] == LinkPrefix
    ensures |link| >= |QueryField + q| && link[|link| - |QueryField + q|..] == QueryField + q
  {
    LinkPrefix + (Decimal.ToDecimal(seed) + (FilterField + (Decimal.ToDecimal(filter) + (QueryField + q))))
  }

  /** A decimal numeral followed by a non-digit ends exactly where the numeral ends. */
  lemma DecimalPrefixFree(a: nat, b: nat, x: string, y: string)
    requires |x| > 0 && |y| > 0 && !Decimal.IsDigit(x[0]) && !Decimal.IsDigit(y[0])
    requires Decimal.ToDecimal(a) + x == Decimal.ToDecimal(b) + y
    ensures a == b && x == y
  {
    var da, db := Decimal.ToDecimal(a), Decimal.ToDecimal(b);
    assert da == (da + x)[..|da|];
    assert db == (db + y)[..|db|];
    Decimal.DecimalInjective(a, b);
    assert x == (da + x)[|da|..];
    assert y == (db + y)[|db|..];
  }

  /** Equal texts with a common prefix agree after it. */
  lemma DropCommonPrefix(p: string, x: string, y: string)
    requires p + x == p + y
    ensures x == y
  {
    assert x == (p + x)[|p|..];
    assert y == (p + y)[|p|..];
  }

  /** The link determines the seed, the filter and the query it was built from. */
  lemma SearchLinkInjective(seed1: nat, filter1: nat, q1: string, seed2: nat, filter2: nat, q2: string)
    requires seed1 < U32_LIMIT && filter1 < U32_LIMIT && seed2 < U32_LIMIT && filter2 < U32_LIMIT
    requires SearchLink(seed1, filter1, q1) == SearchLink(seed2, filter2, q2)
    ensures seed1 == seed2 && filter1 == filter2 && q1 == q2
  {
    var t1 := FilterField + (Decimal.ToDecimal(filter1) + (QueryField + q1));
    var t2 := FilterField + (Decimal.ToDecimal(filter2) + (QueryField + q2));
    DropCommonPrefix(LinkPrefix, Decimal.ToDecimal(seed1) + t1, Decimal.ToDecimal(seed2) + t2);
    DecimalPrefixFree(seed1, seed2, t1, t2);
    DropCommonPrefix(FilterField, Decimal.ToDecimal(filter1) + (QueryField + q1),
                     Decimal.ToDecimal(filter2) + (QueryField + q2));
    DecimalPrefixFree(filter1, filter2, QueryField + q1, QueryField + q2);
    DropCommonPrefix(QueryField, q1, q2);
  }

  /** One search hit: its id and the medium-size rendition of its image (a protocol-relative URL). */
  datatype SearchResult = SearchResult(id: nat, image: string, thumb: string, medium: string)

  /** What the command sends: a plain reply when nothing was found, otherwise an embed with a
      description, a link to the image's page and the image. */
  datatype Reply =
    | NotFound(text: string)
    | Found(description: string, link: string, image: string)

  const PagePrefix: string := "https://derpibooru.org/"
  const ImagePrefix: string := "http:"

  /** The reply to a search: a random not-found text for no results, otherwise an embed built from the
      first result only. */
  function ChooseReply(results: seq<SearchResult>, found: seq<string>, notFound: seq<string>, pick: nat)
    : (r: Reply)
    ensures r.NotFound? <==> |results| == 0
    ensures r.NotFound? ==> (r.text in notFound || (|notFound| == 0 && r.text == ""))
    ensures r.Found? ==> (r.description in found || (|found| == 0 && r.description == ""))
    ensures r.Found? ==> |r.link| > |PagePrefix| && r.link[..|PagePrefix|] == PagePrefix
    ensures r.Found? ==> r.image == ImagePrefix + results[0].medium
  {
    if |results| == 0 then NotFound(ChooseOrEmpty(notFound, pick))
    else
      var first := results[0];
      Found(ChooseOrEmpty(found, pick), PagePrefix + Decimal.ToDecimal(first.id), ImagePrefix + first.medium)
  }

  /** The embed's link names the first result: the text after the page prefix parses back to its id. */
  lemma FoundLinkNamesFirstResult(results: seq<SearchResult>, found: seq<string>, notFound: seq<string>, pick: nat)
    requires |results| > 0 && results[0].id < Decimal.U64_LIMIT
    ensures var r := ChooseReply(results, found, notFound, pick);
            r.Found? && Decimal.ParseU64(r.link[|PagePrefix|..]) == Some(results[0].id)
  {
    var r := ChooseReply(results, found, notFound, pick);
    assert r.link[|PagePrefix|..] == Decimal.ToDecimal(results[0].id);
    Decimal.ParseOfDecimal(results[0].id);
  }

  /** Only the first result matters: results that agree on it give the same reply. */
  lemma OnlyFirstResultMatters(a: seq<SearchResult>, b: seq<SearchResult>, found: seq<string>,
                               notFound: seq<string>, pick: nat)
    requires |a| > 0 && |b| > 0 && a[0] == b[0]
    ensures ChooseReply(a, found, notFound, pick) == ChooseReply(b, found, notFound, pick)
  {
  }

  /** The whole command: resolve, build the link, fetch, reply. A failed fetch (or an unreadable
      response) fails the command and sends nothing. */
  function Gib(aliases: Aliases, filterTags: seq<string>, filter: nat, args: string, seed: nat,
               fetch: string -> Result<seq<SearchResult>, string>,
               found: seq<string>, notFound: seq<string>, pick: nat)
    : (r: Result<Reply, string>)
    requires seed < U32_LIMIT && filter < U32_LIMIT
    ensures var link := SearchLink(seed, filter, Search(filterTags, ResolveTag(aliases, args)));
            && (r.Err? <==> fetch(link).Err?)
            && (r.Ok? ==> r.value == ChooseReply(fetch(link).value, found, notFound, pick))
  {
    var link := SearchLink(seed, filter, Search(filterTags, ResolveTag(aliases, args)));
    match fetch(link)
    case Err(e) => Err(e)
    case Ok(results) => Ok(ChooseReply(results, found, notFound, pick))
  }

  /** An alias and the tag it stands for run the same search, so with the same random numbers and the
      same service they get the same reply. */
  lemma AliasSearchesAsTag(aliases: Aliases, filterTags: seq<string>, filter: nat, alias: string, tag: string,
                           seed: nat, fetch: string -> Result<seq<SearchResult>, string>,
                           found: seq<string>, notFound: seq<string>, pick: nat)
    requires seed < U32_LIMIT && filter < U32_LIMIT
    requires forall j :: 0 <= j < |aliases| && alias in aliases[j].1 ==> aliases[j].0 == tag
    requires exists j :: 0 <= j < |aliases| && alias in aliases[j].1
    requires forall j :: 0 <= j < |aliases| ==> tag !in aliases[j].1
    ensures Gib(aliases, filterTags, filter, alias, seed, fetch, found, notFound, pick)
         == Gib(aliases, filterTags, filter, tag, seed, fetch, found, notFound, pick)
  {
    assert ResolveTag(aliases, alias) == tag;
  }
}

=== FILE: eventhandler.dfy ===
/** The platform event handlers' bookkeeping: the in-memory message cache (newest first, bounded by
    `deleted_msg_cache`), edit patching, the deleted-message lookup, sticky roles kept in the durable
    cache, and nick-change detection. Sending embeds and adding roles are effects of the platform and
    appear here only as the values the handlers would send or add. */
module EventHandler {
  import opened Base
  import opened Types
  import DurableCache
  import Decimal
  import Util

  // ---------------------------------------------------------------------------------------------
  // The message cache

  /** `message`: insert at the front, then `truncate(capacity)` (a no-op when already short enough). */
  function InsertMessage(cache: seq<Message>, m: Message, capacity: nat): (r: seq<Message>)
    ensures |r| == Min(capacity, |cache| + 1)
    ensures capacity > 0 ==> r[0] == m
    ensures capacity > 0 ==> r[1..] == cache[..|r| - 1]
    ensures capacity == 0 ==> r == []
  {
    ([m] + cache)[..Min(capacity, |cache| + 1)]
  }

  /** Handling the messages `ms` in order. */
  function InsertAll(cache: seq<Message>, ms: seq<Message>, capacity: nat): seq<Message>
    decreases |ms|
  {
    if |ms| == 0 then cache else InsertAll(InsertMessage(cache, ms[0], capacity), ms[1..], capacity)
  }

  function Reverse<T>(s: seq<T>): (r: seq<T>)
    ensures |r| == |s|
    ensures forall i :: 0 <= i < |s| ==> r[i] == s[|s| - 1 - i]
  {
    if |s| == 0 then [] else Reverse(s[1..]) + [s[0]]
  }

  /** Taking a prefix of the tail does not change a prefix that ends inside it. */
  lemma PrefixOfPrefix<T>(a: seq<T>, full: seq<T>, k: nat, n: nat)
    requires k <= |full| && n <= |a| + k
    ensures (a + full[..k])[..n] == (a + full)[..n]
  {
    assert forall i :: 0 <= i < n ==> (a + full[..k])[i] == (a + full)[i];
  }

  /** After any sequence of messages, the cache holds the newest ones, newest first, behind which the
      older content follows, all cut to the capacity. */
  lemma {:induction false} InsertAllNewestFirst(cache: seq<Message>, ms: seq<Message>, capacity: nat)
    requires |cache| <= capacity
    ensures InsertAll(cache, ms, capacity) == (Reverse(ms) + cache)[..Min(capacity, |ms| + |cache|)]
    decreases |ms|
  {
    if |ms| > 0 {
      var c1 := InsertMessage(cache, ms[0], capacity);
      InsertAllNewestFirst(c1, ms[1..], capacity);
      assert Reverse(ms) == Reverse(ms[1..]) + [ms[0]];
      assert Reverse(ms) + cache == Reverse(ms[1..]) + ([ms[0]] + cache);
      PrefixOfPrefix(Reverse(ms[1..]), [ms[0]] + cache, |c1|, Min(capacity, |ms| - 1 + |c1|));
    }
  }

  /** The index of the first cached message with this id. */
  function FindIndex(cache: seq<Message>, id: MessageId): (r: Option<nat>)
    ensures r.Some? ==> r.value < |cache| && cache[r.value].id == id
    ensures r.Some? ==> forall j :: 0 <= j < r.value ==> cache[j].id != id
    ensures r.None? ==> forall j :: 0 <= j < |cache| ==> cache[j].id != id
  {
    if |cache| == 0 then None
    else if cache[0].id == id then Some(0)
    else match FindIndex(cache[1..], id)
      case Some(i) => Some(i + 1)
      case None => None
  }

  /** The first cached message with this id, if any (the `find` in `message_delete`). */
  function Lookup(cache: seq<Message>, id: MessageId): (r: Option<Message>)
    ensures r.Some? <==> exists j :: 0 <= j < |cache| && cache[j].id == id
    ensures r.Some? ==> r.value.id == id && r.value in cache
    ensures r.Some? ==> exists i :: 0 <= i < |cache| && cache[i] == r.value && forall j :: 0 <= j < i ==> cache[j].id != id
  {
    match FindIndex(cache, id)
    case Some(i) => Some(cache[i])
    case None => None
  }

  /** A freshly handled message can be found, unless the capacity is zero. */
  lemma InsertThenLookup(cache: seq<Message>, m: Message, capacity: nat)
    requires capacity > 0
    ensures Lookup(InsertMessage(cache, m, capacity), m.id) == Some(m)
  {
  }

  /** Capacity 3, messages 1, 2, 3, 4 handled in order: the cache is [4, 3, 2] and 1 is gone. */
  lemma ExampleCapacityThree(ms: seq<Message>)
    requires |ms| == 4
    requires forall i, j :: 0 <= i < j < 4 ==> ms[i].id != ms[j].id
    ensures InsertAll([], ms, 3) == [ms[3], ms[2], ms[1]]
    ensures Lookup(InsertAll([], ms, 3), ms[0].id).None?
  {
    InsertAllNewestFirst([], ms, 3);
    assert (Reverse(ms) + [])[..3] == [ms[3], ms[2], ms[1]];
  }

  /** The fields a `MessageUpdateEvent` may carry. */
  datatype MessageUpdate = MessageUpdate(
    id: MessageId,
    content: Option<string>,
    attachments: Option<seq<Attachment>>,
    editedTimestamp: Option<Timestamp>)

  /** Overwrite exactly the fields the update carries. */
  function Patch(m: Message, u: MessageUpdate): (r: Message)
    ensures r.id == m.id && r.channelId == m.channelId && r.author == m.author && r.mentions == m.mentions
    ensures r.content == u.content.GetOr(m.content)
    ensures r.attachments == u.attachments.GetOr(m.attachments)
    ensures r.editedTimestamp == if u.editedTimestamp.Some? then u.editedTimestamp else m.editedTimestamp
  {
    var m1 := if u.content.Some? then m.(content := u.content.value) else m;
    var m2 := if u.attachments.Some? then m1.(attachments := u.attachments.value) else m1;
    if u.editedTimestamp.Some? then m2.(editedTimestamp := Some(u.editedTimestamp.value)) else m2
  }

  /** `message_update`: patch the first cached message with the update's id; a miss changes nothing. */
  function ApplyUpdate(cache: seq<Message>, u: MessageUpdate): (r: seq<Message>)
    ensures |r| == |cache|
    ensures FindIndex(cache, u.id).None? ==> r == cache
    ensures FindIndex(cache, u.id).Some? ==>
              var i := FindIndex(cache, u.id).value;
              r[i] == Patch(cache[i], u) && forall j :: 0 <= j < |cache| && j != i ==> r[j] == cache[j]
    ensures forall j :: 0 <= j < |cache| ==> r[j].id == cache[j].id
  {
    match FindIndex(cache, u.id)
    case Some(i) => cache[i := Patch(cache[i], u)]
    case None => cache
  }

  /** After an edit, looking the message up finds the patched snapshot. */
  lemma UpdateThenLookup(cache: seq<Message>, u: MessageUpdate)
    ensures Lookup(ApplyUpdate(cache, u), u.id) ==
            match Lookup(cache, u.id) case Some(m) => Some(Patch(m, u)) case None => None
  {
    var r := ApplyUpdate(cache, u);
    match FindIndex(cache, u.id)
    case Some(i) =>
      assert forall j :: 0 <= j < i ==> r[j].id != u.id;
      FirstIndexUnique(r, u.id, i);
    case None =>
  }

  /** An index that matches with no earlier match is what `FindIndex` returns. */
  lemma FirstIndexUnique(cache: seq<Message>, id: MessageId, i: nat)
    requires i < |cache| && cache[i].id == id
    requires forall j :: 0 <= j < i ==> cache[j].id != id
    ensures FindIndex(cache, id) == Some(i)
  {
  }

  /** `message`: the insult reply (when the bot may respond and is mentioned, and the list is not
      empty) and the cache insert. The pizza/pineapple reactions are not modelled. */
  function OnMessage(config: DiscordConfig, bot: UserId, cache: seq<Message>, m: Message,
                     insults: seq<string>, pick: nat): (r: (seq<Message>, Option<string>))
    ensures r.0 == InsertMessage(cache, m, config.deletedMsgCache)
    ensures r.1.Some? <==> Util.CanRespondTo(config, m) && bot in m.mentions && |insults| > 0
    ensures r.1.Some? ==> r.1.value in insults
  {
    var reply := if Util.CanRespondTo(config, m) && bot in m.mentions && |insults| > 0
      then Some(ChooseOrEmpty(insults, pick)) else None;
    (InsertMessage(cache, m, config.deletedMsgCache), reply)
  }

  // ---------------------------------------------------------------------------------------------
  // Log channels and deleted messages

  /** `get_log_channels`: the configured log channels that the platform cache knows and that belong to
      the guild. `channels` maps a cached channel to its guild. */
  function LogChannels(config: DiscordConfig, channels: map<ChannelId, GuildId>, guild: GuildId)
    : (r: set<ChannelId>)
    ensures r <= config.logChannels
    ensures forall c :: c in r <==> c in config.logChannels && c in channels && channels[c] == guild
  {
    set c | c in config.logChannels && c in channels && channels[c] == guild
  }

  /** What `channel_id.to_channel()` yields: a guild channel, some other kind, or a failure. */
  datatype ChannelFetch = FetchedGuild(guild: GuildId) | FetchedOther | FetchFailed

  datatype DeleteOutcome =
    | IgnoredLogChannel
    | ChannelUnavailable
    | NotCached
    | Logged(snapshot: Message, targets: set<ChannelId>)

  /** `message_delete`: deletions in log channels are ignored; otherwise the first cached snapshot with
      the id is reported to the guild's log channels, and a miss is only logged. */
  function MessageDelete(config: DiscordConfig, channels: map<ChannelId, GuildId>, cache: seq<Message>,
                         channel: ChannelId, fetched: ChannelFetch, id: MessageId): (r: DeleteOutcome)
    ensures channel in config.logChannels ==> r == IgnoredLogChannel
    ensures channel !in config.logChannels && !fetched.FetchedGuild? ==> r == ChannelUnavailable
    ensures channel !in config.logChannels && fetched.FetchedGuild? ==>
              (r.NotCached? <==> forall j :: 0 <= j < |cache| ==> cache[j].id != id)
    ensures r.Logged? ==> Lookup(cache, id) == Some(r.snapshot) && r.targets == LogChannels(config, channels, fetched.guild)
    ensures channel !in config.logChannels && fetched.FetchedGuild? && Lookup(cache, id).Some? ==>
              r == Logged(Lookup(cache, id).value, LogChannels(config, channels, fetched.guild))
    ensures r.Logged? ==> channel !in config.logChannels && fetched.FetchedGuild?
  {
    if channel in config.logChannels then IgnoredLogChannel
    else match fetched
      case FetchedGuild(g) =>
        (match Lookup(cache, id)
         case Some(m) => Logged(m, LogChannels(config, channels, g))
         case None => NotCached)
      case _ => ChannelUnavailable
  }

  /** Each log channel belongs to one guild, so the log channels of two different guilds are disjoint. */
  lemma LogChannelsOfDistinctGuildsDisjoint(config: DiscordConfig, channels: map<ChannelId, GuildId>,
                                            g1: GuildId, g2: GuildId)
    requires g1 != g2
    ensures LogChannels(config, channels, g1) * LogChannels(config, channels, g2) == {}
  {
  }

  /** A delete in a channel that receives the log is itself never logged, whatever the cache holds: the
      log cannot feed on itself. */
  lemma LogTargetDeleteIgnored(config: DiscordConfig, channels: map<ChannelId, GuildId>, g: GuildId,
                               cache: seq<Message>, channel: ChannelId, fetched: ChannelFetch, id: MessageId)
    requires channel in LogChannels(config, channels, g)
    ensures MessageDelete(config, channels, cache, channel, fetched, id) == IgnoredLogChannel
  {
  }

  /** A message pushed out of the cache by `capacity` newer ones is reported as not cached. */
  lemma EvictedDeleteIsUnknown(config: DiscordConfig, channels: map<ChannelId, GuildId>, m: Message,
                               newer: seq<Message>, channel: ChannelId, g: GuildId)
    requires channel !in config.logChannels
    requires |newer| >= config.deletedMsgCache
    requires forall i :: 0 <= i < |newer| ==> newer[i].id != m.id
    ensures MessageDelete(config, channels, InsertAll([], [m] + newer, config.deletedMsgCache), channel,
                          FetchedGuild(g), m.id) == NotCached
  {
    var cap := config.deletedMsgCache;
    InsertAllNewestFirst([], [m] + newer, cap);
    var r := InsertAll([], [m] + newer, cap);
    assert Reverse([m] + newer) == Reverse(newer) + [m] by {
      assert ([m] + newer)[1..] == newer;
    }
    assert forall j :: 0 <= j < |r| ==> r[j] == Reverse(newer)[j];
  }

  // ---------------------------------------------------------------------------------------------
  // Sticky roles (kept in the durable cache, keyed by the user's decimal id)

  /** The member's roles that are configured as sticky. */
  function StickySubset(roles: seq<RoleId>, sticky: set<RoleId>): set<RoleId> {
    set i | 0 <= i < |roles| && roles[i] in sticky :: roles[i]
  }

  /** A user's entry exists only with a non-empty role set. */
  ghost predicate Sparse(m: map<string, set<RoleId>>) {
    forall k :: k in m ==> m[k] != {}
  }

  /** The closure of `guild_member_update`: remove the key when the set is empty, otherwise replace it. */
  function StoreStickyRoles(m: map<string, set<RoleId>>, uid: string, roles: set<RoleId>)
    : (r: map<string, set<RoleId>>)
    ensures roles == {} ==> uid !in r
    ensures roles != {} ==> uid in r && r[uid] == roles
    ensures forall k :: k != uid ==> (k in r <==> k in m)
    ensures forall k :: k in m && k != uid ==> r[k] == m[k]
    ensures Sparse(m) ==> Sparse(r)
  {
    if roles == {} then m - {uid} else m[uid := roles]
  }

  /** The roles the closure of `guild_member_addition` re-adds: the stored set, or none. */
  function RolesToRestore(m: map<string, set<RoleId>>, uid: string): (r: set<RoleId>)
    ensures uid in m ==> r == m[uid]
    ensures uid !in m ==> r == {}
  {
    if uid in m then m[uid] else {}
  }

  /** The name shown for a member: the nick, else the user name. */
  function EffectiveNick(m: Member): string {
    m.nick.GetOr(m.user.name)
  }

  datatype NickChange = NickChange(before: string, after: string, targets: set<ChannelId>)

  /** Nick-change detection in `guild_member_update`: only with a previous member state, and only when
      the names shown differ; reported to the previous member's guild's log channels. */
  function DetectNickChange(config: DiscordConfig, channels: map<ChannelId, GuildId>,
                            previous: Option<Member>, current: Member): (r: Option<NickChange>)
    ensures r.Some? <==> previous.Some? && EffectiveNick(previous.value) != EffectiveNick(current)
    ensures r.Some? ==> r.value.before == EffectiveNick(previous.value) && r.value.after == EffectiveNick(current)
                        && r.value.before != r.value.after
                        && r.value.targets == LogChannels(config, channels, previous.value.guildId)
  {
    match previous
    case None => None
    case Some(o) =>
      if EffectiveNick(current) != EffectiveNick(o)
      then Some(NickChange(EffectiveNick(o), EffectiveNick(current), LogChannels(config, channels, o.guildId)))
      else None
  }

  /** Setting the nick to the user's own name, from no nick, changes nothing that is shown. */
  lemma NickToOwnNameReportsNothing(config: DiscordConfig, channels: map<ChannelId, GuildId>,
                                    previous: Member, current: Member)
    requires previous.nick.None? && current.nick == Some(previous.user.name)
    ensures DetectNickChange(config, channels, Some(previous), current).None?
  {
  }

  /** Swapping the two member states (in one guild) swaps the two names reported. */
  lemma NickChangeSwaps(config: DiscordConfig, channels: map<ChannelId, GuildId>, a: Member, b: Member)
    requires a.guildId == b.guildId
    ensures var ab := DetectNickChange(config, channels, Some(a), b);
            var ba := DetectNickChange(config, channels, Some(b), a);
            && (ab.Some? <==> ba.Some?)
            && (ab.Some? ==> ba.value == NickChange(ab.value.after, ab.value.before, ab.value.targets))
  {
  }

  function UserKey(u: User): string {
    Decimal.ToDecimal(u.id)
  }

  /** `guild_member_update`: store the sticky subset of the current roles through the durable cache (a
      failure there is only logged), then detect a nick change. */
  function GuildMemberUpdate(config: DiscordConfig, channels: map<ChannelId, GuildId>, store: DurableCache.Store,
                             previous: Option<Member>, current: Member, ser: DurableCache.Serializer,
                             fault: DurableCache.WriteFault)
    : (r: (DurableCache.Store, Option<NickChange>))
    ensures var m := r.0.content.stickyRoles;
            forall role :: (UserKey(current.user) in m && role in m[UserKey(current.user)]) <==>
                           (role in current.roles && role in config.stickyRoles)
    ensures var m := r.0.content.stickyRoles;
            forall k :: k != UserKey(current.user) ==>
              (k in m <==> k in store.content.stickyRoles) && (k in m ==> m[k] == store.content.stickyRoles[k])
    ensures r.0.content.redditSeen == store.content.redditSeen && r.0.content.gibSeen == store.content.gibSeen
    ensures Sparse(store.content.stickyRoles) ==> Sparse(r.0.content.stickyRoles)
    ensures r.1 == DetectNickChange(config, channels, previous, current)
    // The new content reaches the file when nothing fails, and a failed serialisation leaves the file.
    ensures fault.NoFault? && ser(r.0.content).Some? ==> r.0.disk == ser(r.0.content).value
    ensures ser(r.0.content).None? ==> r.0.disk == store.disk
  {
    var uid := UserKey(current.user);
    var sticky := StickySubset(current.roles, config.stickyRoles);
    var (store', _) := DurableCache.With(store,
      (c: DurableCache.CacheContent) => (c.(stickyRoles := StoreStickyRoles(c.stickyRoles, uid, sticky)), Unit),
      ser, fault);
    assert forall role :: role in sticky <==> role in current.roles && role in config.stickyRoles;
    (store', DetectNickChange(config, channels, previous, current))
  }

  /** `guild_member_addition`: the closure re-adds the stored roles (the `add_role` calls happen inside
      it, before the write-back), and `with` then rewrites the unchanged content. */
  function GuildMemberAddition(store: DurableCache.Store, member: Member, ser: DurableCache.Serializer,
                               fault: DurableCache.WriteFault)
    : (r: (DurableCache.Store, set<RoleId>))
    ensures r.0.content == store.content
    ensures r.1 == RolesToRestore(store.content.stickyRoles, UserKey(member.user))
    ensures ser(store.content).Some? && fault.NoFault? ==> r.0.disk == ser(store.content).value
  {
    var uid := UserKey(member.user);
    var f := (c: DurableCache.CacheContent) => (c, RolesToRestore(c.stickyRoles, uid));
    var (store', _) := DurableCache.With(store, f, ser, fault);
    (store', f(store.content).1)
  }

  /** Leaving and rejoining: whatever happened to the write-back, a member who is updated and then
      rejoins gets back exactly the sticky subset of the roles the update carried. */
  lemma RejoinRestoresStickyRoles(config: DiscordConfig, channels: map<ChannelId, GuildId>,
                                  store: DurableCache.Store, previous: Option<Member>, member: Member,
                                  rejoined: Member, ser: DurableCache.Serializer,
                                  fault1: DurableCache.WriteFault, fault2: DurableCache.WriteFault)
    requires rejoined.user.id == member.user.id
    ensures var s1 := GuildMemberUpdate(config, channels, store, previous, member, ser, fault1).0;
            GuildMemberAddition(s1, rejoined, ser, fault2).1 == StickySubset(member.roles, config.stickyRoles)
  {
    var s1 := GuildMemberUpdate(config, channels, store, previous, member, ser, fault1).0;
    var got := GuildMemberAddition(s1, rejoined, ser, fault2).1;
    var want := StickySubset(member.roles, config.stickyRoles);
    assert UserKey(rejoined.user) == UserKey(member.user);
    assert forall role :: role in want <==> role in member.roles && role in config.stickyRoles;
    assert forall role :: role in got <==> role in want;
  }

  /** Update, restart, rejoin: when the update's write-back succeeds and the serialiser and parser
      agree, the file reloads after a restart and a rejoining member gets back exactly the sticky
      subset of the roles the update carried. */
  lemma RestartKeepsStickyRoles(config: DiscordConfig, channels: map<ChannelId, GuildId>,
                                store: DurableCache.Store, previous: Option<Member>, member: Member,
                                rejoined: Member, ser: DurableCache.Serializer, parse: DurableCache.Parser,
                                fault2: DurableCache.WriteFault)
    requires DurableCache.Faithful(ser, parse)
    requires rejoined.user.id == member.user.id
    requires ser(GuildMemberUpdate(config, channels, store, previous, member, ser, DurableCache.NoFault).0.content).Some?
    ensures var s1 := GuildMemberUpdate(config, channels, store, previous, member, ser, DurableCache.NoFault).0;
            var reloaded := DurableCache.FromFile(Ok(s1.disk), parse);
            && reloaded.Ok?
            && reloaded.value.content == s1.content
            && GuildMemberAddition(reloaded.value, rejoined, ser, fault2).1 == StickySubset(member.roles, config.stickyRoles)
  {
    var s1 := GuildMemberUpdate(config, channels, store, previous, member, ser, DurableCache.NoFault).0;
    DurableCache.DefaultsOfComplete(s1.content);
    var reloaded := DurableCache.FromFile(Ok(s1.disk), parse);
    assert reloaded == Ok(s1);
    RejoinRestoresStickyRoles(config, channels, store, previous, member, rejoined, ser, DurableCache.NoFault, fault2);
  }
}

=== FILE: gating.dfy ===
/** The channel blacklist/whitelist rule. */
module Util {
  import opened Types

  /** `can_talk_in`: never in a blacklisted channel; otherwise anywhere when the whitelist is empty,
      and only in whitelisted channels when it is not. */
  predicate CanTalkIn(config: DiscordConfig, channel: ChannelId) {
    && channel !in config.channelBlacklist
    && (|config.channelWhitelist| == 0 || channel in config.channelWhitelist)
  }

  /** `can_respond_to`: the rule applied to the message's channel. */
  predicate CanRespondTo(config: DiscordConfig, message: Message) {
    CanTalkIn(config, message.channelId)
  }

  /** `can_respond_to` is the channel rule applied to the message's channel, so two messages in one
      channel are treated alike whoever sent them and whatever they say. */
  lemma CanRespondToFollowsChannel(config: DiscordConfig, m1: Message, m2: Message)
    requires m1.channelId == m2.channelId
    ensures CanRespondTo(config, m1) <==> CanTalkIn(config, m1.channelId)
    ensures CanRespondTo(config, m1) == CanRespondTo(config, m2)
  {
  }

  /** The rule's three cases, as the configuration documents them. */
  lemma CanTalkInCases(config: DiscordConfig, channel: ChannelId)
    ensures channel in config.channelBlacklist ==> !CanTalkIn(config, channel)
    ensures channel !in config.channelBlacklist && config.channelWhitelist == {} ==> CanTalkIn(config, channel)
    ensures config.channelWhitelist != {} ==>
              (CanTalkIn(config, channel) <==> channel in config.channelWhitelist && channel !in config.channelBlacklist)
  {
  }
}

/** The command framework's gate (`before`), its error replies and the dispatch-error reason table. */
module Discord {
  import opened Base
  import opened Types
  import Util

  /** The framework's permission bit set; only `SEND_MESSAGES` (bit 11) is consulted. */
  type Permissions = bv64
  const SEND_MESSAGES: Permissions := 0x0000_0000_0000_0800

  /** What `message.channel()` finds in the platform cache, and for a guild channel what
      `permissions_for(bot)` gives (`None` when that lookup fails). */
  datatype ChannelView =
    | NotCached
    | Guild(id: ChannelId, botPermissions: Option<Permissions>)
    | Private
    | Group
    | Category

  predicate HasSendMessages(perms: Permissions) {
    perms & SEND_MESSAGES == SEND_MESSAGES
  }

  /** The `before` closure: whether a command may run. Anything that is not a guild channel (including
      a channel missing from the cache) passes; a guild channel needs the send-messages permission and
      the blacklist/whitelist rule. */
  function Before(config: DiscordConfig, channel: ChannelView): (allowed: bool)
    ensures !channel.Guild? ==> allowed
    ensures channel.Guild? && channel.botPermissions.None? ==> !allowed
    ensures channel.Guild? && channel.id in config.channelBlacklist ==> !allowed
    ensures channel.Guild? ==>
              (allowed <==> channel.botPermissions.Some? && HasSendMessages(channel.botPermissions.value)
                            && Util.CanTalkIn(config, channel.id))
  {
    match channel
    case Guild(id, perms) =>
      (match perms
       case Some(p) =>
         && HasSendMessages(p)
         && id !in config.channelBlacklist
         && (|config.channelWhitelist| == 0 || id in config.channelWhitelist)
       case None => false)
    case _ => true
  }

  /** The framework's dispatch errors; the ones the bot does not name are grouped as `Other`. */
  datatype DispatchError =
    | LackOfPermissions(required: Permissions)
    | OnlyForGuilds
    | NotEnoughArguments(min: nat, given: nat)
    | TooManyArguments(max: nat, given: nat)
    | Other(name: string)

  /** `on_dispatch_error`'s reason for each error. */
  function Reason(e: DispatchError): (reason: string)
    ensures e.LackOfPermissions? ==> reason == "You're not good enough to use that command."
    ensures e.OnlyForGuilds? ==> reason == "That command is only available on a server!"
    ensures e.NotEnoughArguments? ==> reason == "That command needs more arguments!"
    ensures e.TooManyArguments? ==> reason == "That command can't take that many arguments!"
    ensures e.Other? ==> reason == "That's not a valid command!"
  {
    match e
    case LackOfPermissions(_) => "You're not good enough to use that command."
    case OnlyForGuilds => "That command is only available on a server!"
    case NotEnoughArguments(_, _) => "That command needs more arguments!"
    case TooManyArguments(_, _) => "That command can't take that many arguments!"
    case Other(_) => "That's not a valid command!"
  }

  /** The insult appended to every error reply: a random one (the caller's `pick`), or nothing when the
      list is empty. */
  function Insult(insults: seq<string>, pick: nat): string {
    ChooseOrEmpty(insults, pick)
  }

  /** The reply to a dispatch error: the reason, a space and the insult. */
  function DispatchErrorReply(e: DispatchError, insults: seq<string>, pick: nat): (reply: string)
    ensures |reply| > |Reason(e)| && reply[..|Reason(e)| + 1] == Reason(e) + " "
  {
    Reason(e) + " " + Insult(insults, pick)
  }

  /** The `after` hook: a command that returned an error gets the not-valid reply; success gets none. */
  function AfterReply<E>(result: Result<Unit, E>, insults: seq<string>, pick: nat): (reply: Option<string>)
    ensures result.Ok? <==> reply.None?
    ensures reply.Some? ==> reply.value == "That's not a valid command! " + Insult(insults, pick)
  {
    match result
    case Ok(_) => None
    case Err(_) => Some("That's not a valid command! " + Insult(insults, pick))
  }

  /** The reply to an unrecognised command. */
  function UnrecognisedReply(insults: seq<string>, pick: nat): (reply: string)
    ensures |reply| >= 26 && reply[..26] == "That's not even a command!"
  {
    "That's not even a command! " + Insult(insults, pick)
  }

  /** The gate applies exactly the channel rule of `can_talk_in` on top of the permission check, so a
      guild channel the bot may not talk in never runs a command. */
  lemma GateAgreesWithChannelRule(config: DiscordConfig, id: ChannelId, perms: Permissions)
    requires HasSendMessages(perms)
    ensures Before(config, Guild(id, Some(perms))) == Util.CanTalkIn(config, id)
  {
  }

  /** Every dispatch error gets one of the five reasons, and distinct named kinds get distinct reasons. */
  lemma ReasonsDistinct(a: DispatchError, b: DispatchError)
    requires !a.Other? && !b.Other?
    requires Reason(a) == Reason(b)
    ensures a.LackOfPermissions? == b.LackOfPermissions? && a.OnlyForGuilds? == b.OnlyForGuilds?
    ensures a.NotEnoughArguments? == b.NotEnoughArguments? && a.TooManyArguments? == b.TooManyArguments?
  {
  }
}

=== FILE: history.dfy ===
/** Timestamped tables and the "keep the K most recent rows" eviction statement
    (`DELETE ... WHERE id NOT IN (SELECT id ... ORDER BY time DESC LIMIT :history)`). */
module History {
  import opened Base

  /** A logical clock reading, supplied by the caller in place of `datetime('now')`. */
  type Time = nat

  /** A table row: its payload and the time it was last written. */
  datatype Timed<V> = Timed(value: V, time: Time)

  /** `after` is a result the eviction statement may leave behind: a sub-table of `before` with
      exactly min(limit, |before|) rows, none of them older than any row it dropped. Among rows with
      equal times SQLite's choice is unspecified, so this is a relation and not a function. */
  ghost predicate KeepsNewest<K, V>(before: map<K, Timed<V>>, after: map<K, Timed<V>>, limit: nat) {
    && after.Keys <= before.Keys
    && (forall k :: k in after ==> after[k] == before[k])
    && |after| == Min(limit, |before|)
    && NoneNewerDropped(before, after)
  }

  /** No row `after` dropped from `before` is newer than a row it kept. */
  ghost predicate NoneNewerDropped<K, V>(before: map<K, Timed<V>>, after: map<K, Timed<V>>) {
    forall kept, dropped :: kept in after && kept in before && dropped in before && dropped !in after ==>
      before[dropped].time <= before[kept].time
  }

  /** Every row is at most as new as `now`: the clock has not gone backwards. */
  ghost predicate AllOlderThan<K, V>(t: map<K, Timed<V>>, now: Time) {
    forall k :: k in t ==> t[k].time < now
  }

  /** A row of the table with the smallest time. */
  method Oldest<K, V>(t: map<K, Timed<V>>) returns (oldest: K)
    requires |t| > 0
    ensures oldest in t
    ensures forall k :: k in t ==> t[oldest].time <= t[k].time
  {
    var keys := t.Keys;
    assert |keys| == |t|;
    oldest :| oldest in keys;
    var todo := keys - {oldest};
    while todo != {}
      invariant todo <= keys
      invariant oldest in t
      invariant forall k :: k in keys && k !in todo ==> t[oldest].time <= t[k].time
      decreases todo
    {
      var k :| k in todo;
      if t[k].time < t[oldest].time {
        oldest := k;
      }
      todo := todo - {k};
    }
  }

  /** One evaluation of the eviction statement: drop oldest rows until at most `limit` remain. */
  method KeepNewest<K, V>(t: map<K, Timed<V>>, limit: nat) returns (r: map<K, Timed<V>>)
    ensures KeepsNewest(t, r, limit)
  {
    r := t;
    while |r| > limit
      invariant r.Keys <= t.Keys
      invariant forall k :: k in r ==> r[k] == t[k]
      invariant |r| >= Min(limit, |t|)
      invariant |r| <= |t|
      invariant |t| <= limit ==> r == t
      invariant forall kept, dropped :: kept in r && dropped in t && dropped !in r ==>
                  t[dropped].time <= t[kept].time
      decreases |r|
    {
      var oldest := Oldest(r);
      var r' := map k | k in r && k != oldest :: r[k];
      assert r'.Keys == r.Keys - {oldest};
      assert |r'.Keys| == |r.Keys| - 1;
      r := r';
    }
  }

  /** `INSERT OR REPLACE` of a row stamped `now`, then the eviction statement. */
  method Record<K, V>(t: map<K, Timed<V>>, key: K, value: V, now: Time, limit: nat)
    returns (r: map<K, Timed<V>>)
    ensures KeepsNewest(t[key := Timed(value, now)], r, limit)
    ensures |r| <= limit
    ensures key in t ==> |r| <= |t|
    ensures limit > 0 && AllOlderThan(t, now) ==> key in r && r[key] == Timed(value, now)
  {
    var t' := t[key := Timed(value, now)];
    r := KeepNewest(t', limit);
    if limit > 0 && AllOlderThan(t, now) {
      NewestSurvives(t', r, limit, key);
    }
  }

  /** A row strictly newer than every other row survives any eviction that keeps at least one row. */
  lemma NewestSurvives<K, V>(before: map<K, Timed<V>>, after: map<K, Timed<V>>, limit: nat, key: K)
    requires KeepsNewest(before, after, limit)
    requires limit > 0 && key in before
    requires forall k :: k in before && k != key ==> before[k].time < before[key].time
    ensures key in after
  {
  }

  /** Eviction never drops a row while a strictly older row is kept. */
  lemma EvictionRespectsAge<K, V>(before: map<K, Timed<V>>, after: map<K, Timed<V>>, older: K, newer: K)
    requires NoneNewerDropped(before, after)
    requires older in before && newer in before
    requires before[older].time < before[newer].time
    ensures older in after ==> newer in after
  {
  }

  /** Recording K+1 keys at increasing times with capacity K = 2 leaves exactly the last two:
      marking "a", "b", "c" at times 1, 2, 3 keeps {"b", "c"}. */
  lemma ExampleCapacityTwo(after: map<string, Timed<Unit>>)
    requires KeepsNewest(map["a" := Timed(Unit, 1), "b" := Timed(Unit, 2), "c" := Timed(Unit, 3)], after, 2)
    ensures after.Keys == {"b", "c"}
  {
    var before := map["a" := Timed(Unit, 1), "b" := Timed(Unit, 2), "c" := Timed(Unit, 3)];
    assert before.Keys == {"a", "b", "c"};
    assert |before| == 3;
    assert |after| == 2;
    if "a" in after {
      EvictionRespectsAge(before, after, "a", "b");
      EvictionRespectsAge(before, after, "a", "c");
      SubsetCardinality({"a", "b", "c"}, after.Keys);
      assert false;
    }
    assert after.Keys <= {"b", "c"};
    if "b" !in after {
      SubsetCardinality(after.Keys, {"c"});
      assert false;
    }
    if "c" !in after {
      SubsetCardinality(after.Keys, {"b"});
      assert false;
    }
  }

  lemma SubsetCardinality<T>(a: set<T>, b: set<T>)
    requires a <= b
    ensures |a| <= |b|
  {
    assert b == a + (b - a);
  }
}

=== FILE: migrations.dfy ===
/** The schema migration runner: a version counter (`PRAGMA user_version`) advanced one step at a time. */
module Migrations {
  import opened Base

  /** The number of migration steps; the latest schema version. */
  const MIGRATION_STEPS: nat := 1

  /** The tables a step creates. Step 0's batch is one transaction, so it creates all or none. */
  function MigrateStep(step: nat): (tables: set<string>)
    requires step < MIGRATION_STEPS
    ensures tables == {"users", "usernames", "nicks"}
  {
    match step
    case 0 => {"users", "usernames", "nicks"}
  }

  /** The schema a database at version `v` has: the tables of every step below `v`. */
  function SchemaAt(v: nat): set<string> {
    SchemaStepsBetween(0, v)
  }

  datatype MigrationError = StepFailed(step: nat) | VersionWriteFailed(step: nat)

  /** The database as the runner sees it: the stored version and the tables that exist. */
  datatype Database = Database(version: nat, tables: set<string>)

  /** `apply_migrations`: run steps `initial, initial+1, ..., MIGRATION_STEPS-1` in order, setting the
      version to `step + 1` after each step succeeds; return `(initial, MIGRATION_STEPS - 1)`.
      `stepOk(s)` and `writeOk(s)` say whether step `s`'s batch and the version write after it succeed.
      A stored version at or above `MIGRATION_STEPS` runs nothing and is not an error. */
  method ApplyMigrations(db: Database, stepOk: nat -> bool, writeOk: nat -> bool)
    returns (db': Database, ran: seq<nat>, r: Result<(nat, nat), MigrationError>)
    ensures forall i :: 0 <= i < |ran| ==> ran[i] == db.version + i && ran[i] < MIGRATION_STEPS
    ensures db.version >= MIGRATION_STEPS ==> ran == [] && db' == db && r == Ok((db.version, MIGRATION_STEPS - 1))
    ensures r.Ok? ==> r.value == (db.version, MIGRATION_STEPS - 1)
    ensures r.Ok? ==> db'.version == Max(db.version, MIGRATION_STEPS)
    ensures r.Ok? && db.tables == SchemaAt(db.version) ==> db'.tables == SchemaAt(db'.version)
    ensures r.Err? && r.error.StepFailed? ==>
              |ran| > 0 && r.error.step == ran[|ran| - 1] && db'.version == r.error.step
              && db'.tables == db.tables + SchemaStepsBetween(db.version, r.error.step)
    ensures r.Err? && r.error.StepFailed? ==> !stepOk(r.error.step)
    ensures r.Err? && r.error.VersionWriteFailed? ==>
              |ran| > 0 && r.error.step == ran[|ran| - 1] && db'.version == r.error.step
              && stepOk(r.error.step) && !writeOk(r.error.step)
              && db'.tables == db.tables + SchemaStepsBetween(db.version, r.error.step + 1)
    ensures (forall s :: db.version <= s < MIGRATION_STEPS ==> stepOk(s) && writeOk(s)) ==> r.Ok?
    ensures forall i :: 0 <= i < |ran| - 1 ==> stepOk(ran[i]) && writeOk(ran[i])
    ensures r.Ok? && db.version < MIGRATION_STEPS ==>
              |ran| == MIGRATION_STEPS - db.version && forall i :: 0 <= i < |ran| ==> stepOk(ran[i]) && writeOk(ran[i])
  {
    db' := db;
    ran := [];
    var step := db.version;
    while step < MIGRATION_STEPS
      invariant db.version <= step
      invariant db.version < MIGRATION_STEPS ==> step <= MIGRATION_STEPS
      invariant db.version >= MIGRATION_STEPS ==> step == db.version
      invariant db'.version == step
      invariant |ran| == step - db.version
      invariant forall i :: 0 <= i < |ran| ==> ran[i] == db.version + i && ran[i] < MIGRATION_STEPS
      invariant forall i :: 0 <= i < |ran| ==> stepOk(ran[i]) && writeOk(ran[i])
      invariant db'.tables == db.tables + SchemaStepsBetween(db.version, step)
      decreases MIGRATION_STEPS - step
    {
      ran := ran + [step];
      if !stepOk(step) {
        r := Err(StepFailed(step));
        return;
      }
      db' := db'.(tables := db'.tables + MigrateStep(step));
      StepsCompose(db.version, step, step + 1);
      if !writeOk(step) {
        r := Err(VersionWriteFailed(step));
        return;
      }
      db' := db'.(version := step + 1);
      step := step + 1;
    }
    r := Ok((db.version, MIGRATION_STEPS - 1));
    if db.version < MIGRATION_STEPS {
      StepsCompose(0, db.version, step);
    } else {
      StepsBeyondLatest(db.version, step);
      StepsCompose(0, MIGRATION_STEPS, db.version);
      StepsBeyondLatest(MIGRATION_STEPS, db.version);
    }
  }

  /** The tables created by steps `from .. to-1`. */
  function SchemaStepsBetween(from: nat, to: nat): set<string>
    decreases to - from
  {
    if to <= from || from >= MIGRATION_STEPS then {} else MigrateStep(from) + SchemaStepsBetween(from + 1, to)
  }

  /** Running steps `a .. v-1` and then `v .. w-1` builds what running `a .. w-1` builds. */
  lemma {:induction false} StepsCompose(a: nat, v: nat, w: nat)
    requires a <= v <= w
    ensures SchemaStepsBetween(a, v) + SchemaStepsBetween(v, w) == SchemaStepsBetween(a, w)
    decreases v - a
  {
    if a < v && a < MIGRATION_STEPS {
      StepsCompose(a + 1, v, w);
    } else if a < v {
      StepsBeyondLatest(a, v);
      StepsBeyondLatest(a, w);
    }
  }

  /** No step exists at or beyond `MIGRATION_STEPS`. */
  lemma StepsBeyondLatest(a: nat, w: nat)
    requires a >= MIGRATION_STEPS
    ensures SchemaStepsBetween(a, w) == {}
  {
  }

  /** Running the migrations a second time, on an already current database, runs nothing and changes nothing. */
  method MigrateTwice(db: Database, stepOk: nat -> bool, writeOk: nat -> bool)
    returns (db1: Database, db2: Database, first: Result<(nat, nat), MigrationError>,
             second: Result<(nat, nat), MigrationError>, ranAgain: seq<nat>)
    ensures first.Ok? ==> second.Ok? && ranAgain == [] && db2 == db1
    ensures (forall s :: stepOk(s) && writeOk(s)) ==> first.Ok? && second.Ok? && ranAgain == []
  {
    var ran1, r1;
    db1, ran1, r1 := ApplyMigrations(db, stepOk, writeOk);
    first := r1;
    var ran2, r2;
    db2, ran2, r2 := ApplyMigrations(db1, stepOk, writeOk);
    second := r2;
    ranAgain := ran2;
  }
}

=== FILE: operations.dfy ===
/** The SQLite bookkeeping statements, one function or method per statement group.
    Tables are maps (keyed by the table's primary key) or sets of rows; `datetime('now')` is the
    caller-supplied logical time `now`. SQL itself is not modelled, only each statement's effect. */
module Db {
  import opened Base
  import opened Types
  import opened History
  import Decimal

  // ---------------------------------------------------------------------------------------------
  // users / usernames: presence upserts

  /** A `users` row. The migration declares `first_online` and `last_online` NOT NULL. */
  datatype UserRow = UserRow(
    firstOnline: Option<Time>,
    lastOnline: Option<Time>,
    firstMessage: Option<Time>,
    lastMessage: Option<Time>)

  /** The primary key of `usernames`: id, name and the four-digit discriminator. */
  datatype NameKey = NameKey(id: UserId, name: string, discriminator: nat)

  /** A `usernames` row; both times are declared NOT NULL. */
  datatype PresenceRow = PresenceRow(firstOnline: Option<Time>, lastOnline: Option<Time>)

  datatype People = People(users: map<UserId, UserRow>, usernames: map<NameKey, PresenceRow>)

  function KeyOf(user: User): NameKey {
    NameKey(user.id, user.name, user.discriminator)
  }

  /** The NOT NULL constraints of the `users` table (migration step 0). */
  predicate UserRowAllowed(row: UserRow) {
    row.firstOnline.Some? && row.lastOnline.Some?
  }

  /** The NOT NULL constraints of the `usernames` table (migration step 0). */
  predicate PresenceRowAllowed(row: PresenceRow) {
    row.firstOnline.Some? && row.lastOnline.Some?
  }

  /** `user_online`: insert the user and the (id, name, discriminator) triple, or on conflict keep the
      first-seen time (`COALESCE`) and move the last-seen time to `now`. */
  function UserOnline(p: People, user: User, now: Time): (r: People)
    ensures r.users.Keys == p.users.Keys + {user.id}
    ensures r.usernames.Keys == p.usernames.Keys + {KeyOf(user)}
    ensures r.users[user.id].lastOnline == Some(now)
    ensures r.usernames[KeyOf(user)].lastOnline == Some(now)
    ensures KeyOf(user) !in p.usernames ==> r.usernames[KeyOf(user)] == PresenceRow(Some(now), Some(now))
    ensures KeyOf(user) in p.usernames ==>
              r.usernames[KeyOf(user)].firstOnline == Some(Coalesce(p.usernames[KeyOf(user)].firstOnline, now))
    ensures user.id !in p.users ==> r.users[user.id] == UserRow(Some(now), Some(now), None, None)
    ensures user.id in p.users ==>
              && r.users[user.id].firstOnline == Some(Coalesce(p.users[user.id].firstOnline, now))
              && (p.users[user.id].firstOnline.Some? ==> r.users[user.id].firstOnline == p.users[user.id].firstOnline)
              && r.users[user.id].firstMessage == p.users[user.id].firstMessage
              && r.users[user.id].lastMessage == p.users[user.id].lastMessage
    ensures forall id :: id in p.users && id != user.id ==> r.users[id] == p.users[id]
    ensures forall k :: k in p.usernames && k != KeyOf(user) ==> r.usernames[k] == p.usernames[k]
  {
    var row := if user.id in p.users then
        var stored := p.users[user.id];
        stored.(firstOnline := Some(Coalesce(stored.firstOnline, now)), lastOnline := Some(now))
      else UserRow(Some(now), Some(now), None, None);
    var key := KeyOf(user);
    var name := if key in p.usernames then
        PresenceRow(Some(Coalesce(p.usernames[key].firstOnline, now)), Some(now))
      else PresenceRow(Some(now), Some(now));
    People(p.users[user.id := row], p.usernames[key := name])
  }

  /** `user_offline` as written: `INSERT OR IGNORE` of rows whose times are explicit NULLs. Those rows
      violate the NOT NULL constraints, and the IGNORE conflict algorithm skips a violating row, so
      neither insert ever happens. */
  function UserOfflineAsWritten(p: People, user: User): (r: People)
    ensures r == p
  {
    var row := UserRow(None, None, None, None);
    var name := PresenceRow(None, None);
    var users := if user.id in p.users || !UserRowAllowed(row) then p.users else p.users[user.id := row];
    var key := KeyOf(user);
    var usernames := if key in p.usernames || !PresenceRowAllowed(name) then p.usernames
      else p.usernames[key := name];
    People(users, usernames)
  }

  /** The statement never records anything: a user first seen offline stays unknown. */
  lemma UserOfflineRecordsNothing(p: People, user: User)
    ensures UserOfflineAsWritten(p, user) == p
    ensures user.id !in p.users ==> user.id !in UserOfflineAsWritten(p, user).users
  {
  }

  /** `user_offline` as evidently intended: record a user (and name) not seen before, with no online
      times, and leave known rows alone. This presumes the time columns accept NULL, which the
      `COALESCE(first_online, ...)` in `user_online` already anticipates. */
  function UserOffline(p: People, user: User): (r: People)
    ensures user.id in r.users && KeyOf(user) in r.usernames
    ensures r.users.Keys == p.users.Keys + {user.id}
    ensures r.usernames.Keys == p.usernames.Keys + {KeyOf(user)}
    ensures user.id !in p.users ==> r.users[user.id].firstOnline.None? && r.users[user.id].lastOnline.None?
    ensures forall id :: id in p.users ==> r.users[id] == p.users[id]
    ensures forall k :: k in p.usernames ==> r.usernames[k] == p.usernames[k]
  {
    var key := KeyOf(user);
    var users := if user.id in p.users then p.users else p.users[user.id := UserRow(None, None, None, None)];
    var usernames := if key in p.usernames then p.usernames else p.usernames[key := PresenceRow(None, None)];
    People(users, usernames)
  }

  /** With the corrected `user_offline`, a user first seen offline and later online gets the later
      time as first-online: the `COALESCE` fills the NULL. */
  lemma OfflineThenOnline(p: People, user: User, now: Time)
    requires user.id !in p.users
    ensures UserOnline(UserOffline(p, user), user, now).users[user.id].firstOnline == Some(now)
    ensures UserOnline(UserOffline(p, user), user, now).users.Keys == p.users.Keys + {user.id}
  {
  }

  /** `user_message`: stamp a known user's first (once) and last message times; unknown users are ignored. */
  function UserMessage(users: map<UserId, UserRow>, id: UserId, now: Time): (r: map<UserId, UserRow>)
    ensures r.Keys == users.Keys
    ensures id in users ==>
              && r[id].lastMessage == Some(now)
              && r[id].firstMessage == Some(Coalesce(users[id].firstMessage, now))
              && r[id].firstOnline == users[id].firstOnline && r[id].lastOnline == users[id].lastOnline
    ensures forall k :: k in users && k != id ==> r[k] == users[k]
  {
    if id in users then
      users[id := users[id].(firstMessage := Some(Coalesce(users[id].firstMessage, now)), lastMessage := Some(now))]
    else users
  }

  // ---------------------------------------------------------------------------------------------
  // messages: snapshot cache kept to the newest `deleted_msg_cache` rows

  /** A `messages` row: the author's id and the JSON of the whole message. */
  datatype StoredMessage = StoredMessage(userId: UserId, json: string)

  /** `serde_json::to_string`; `None` is an encoding error. */
  type Encoder = Message -> Option<string>
  /** `serde_json::from_str` into `Option<Message>` (JSON `null` decodes to `None`). */
  type Decoder = string -> Result<Option<Message>, string>

  datatype DbError = Json(reason: string) | JsonEncode

  /** `cache_message`: `INSERT OR REPLACE` of the snapshot, then eviction down to the newest `limit` rows.
      An encoding failure aborts before either statement runs. */
  method CacheMessage(t: map<MessageId, Timed<StoredMessage>>, m: Message, encode: Encoder, now: Time, limit: nat)
    returns (r: Result<map<MessageId, Timed<StoredMessage>>, DbError>)
    ensures encode(m).None? <==> r.Err?
    ensures r.Err? ==> r.error == JsonEncode
    ensures r.Ok? ==> |r.value| <= limit
    ensures r.Ok? ==> KeepsNewest(t[m.id := Timed(StoredMessage(m.author.id, encode(m).value), now)], r.value, limit)
    ensures r.Ok? && limit > 0 && AllOlderThan(t, now) ==>
              m.id in r.value && r.value[m.id].value == StoredMessage(m.author.id, encode(m).value)
  {
    match encode(m) {
      case None =>
        r := Err(JsonEncode);
      case Some(json) =>
        var t' := Record(t, m.id, StoredMessage(m.author.id, json), now, limit);
        r := Ok(t');
    }
  }

  /** `get_message`: `None` for an absent id, otherwise the decoded snapshot, or the decoding error. */
  function GetMessage(t: map<MessageId, Timed<StoredMessage>>, id: MessageId, decode: Decoder)
    : (r: Result<Option<Message>, DbError>)
    ensures id !in t ==> r == Ok(None)
    ensures id in t ==> match decode(t[id].value.json)
      case Ok(o) => r == Ok(o)
      case Err(e) => r == Err(Json(e))
  {
    if id in t then
      match decode(t[id].value.json)
      case Ok(o) => Ok(o)
      case Err(e) => Err(Json(e))
    else Ok(None)
  }

  /** Round trip: a snapshot that survived eviction reads back as the message cached, when the
      encoder and decoder agree on it. */
  lemma GetCachedMessage(t: map<MessageId, Timed<StoredMessage>>, m: Message, encode: Encoder, decode: Decoder)
    requires encode(m).Some? && decode(encode(m).value) == Ok(Some(m))
    requires m.id in t && t[m.id].value.json == encode(m).value
    ensures GetMessage(t, m.id, decode) == Ok(Some(m))
  {
  }

  // ---------------------------------------------------------------------------------------------
  // sticky_roles: (user, role text) rows, replaced set-wise per user

  /** A `sticky_roles` row. The role id is stored as text and parsed back when read. */
  datatype StickyRow = StickyRow(user: UserId, role: string)

  function RoleTexts(roles: seq<RoleId>): set<string> {
    set i | 0 <= i < |roles| :: Decimal.ToDecimal(roles[i])
  }

  /** `set_sticky_roles`: delete the user's rows whose role is not in `roles`, then insert-or-ignore a
      row for every role in `roles`. */
  function SetStickyRoles(rows: set<StickyRow>, user: UserId, roles: seq<RoleId>): (r: set<StickyRow>)
    ensures forall row :: row in r && row.user == user <==> row.user == user && row.role in RoleTexts(roles)
    ensures forall row: StickyRow :: row.user != user ==> (row in r <==> row in rows)
  {
    var texts := RoleTexts(roles);
    var kept := set row | row in rows && (row.user != user || row.role in texts);
    kept + (set t | t in texts :: StickyRow(user, t))
  }

  /** `get_sticky_roles`: the user's stored roles that parse as a `u64`; others are silently dropped. */
  function GetStickyRoles(rows: set<StickyRow>, user: UserId): (r: set<RoleId>)
    ensures forall x :: x in r ==> x < Decimal.U64_LIMIT
    ensures forall row :: row in rows && row.user == user && Decimal.ParseU64(row.role).Some? ==>
              Decimal.ParseU64(row.role).value in r
    ensures forall x :: x in r ==> exists row :: row in rows && row.user == user && Decimal.ParseU64(row.role) == Some(x)
  {
    set row | row in rows && row.user == user && Decimal.ParseU64(row.role).Some? :: Decimal.ParseU64(row.role).value
  }

  /** Round trip: after `set_sticky_roles(user, roles)`, `get_sticky_roles(user)` is exactly the set of `roles`. */
  lemma SetThenGetStickyRoles(rows: set<StickyRow>, user: UserId, roles: seq<RoleId>)
    requires forall i :: 0 <= i < |roles| ==> roles[i] < Decimal.U64_LIMIT
    ensures GetStickyRoles(SetStickyRoles(rows, user, roles), user) == set i | 0 <= i < |roles| :: roles[i]
  {
    var after := SetStickyRoles(rows, user, roles);
    var got := GetStickyRoles(after, user);
    var want := set i | 0 <= i < |roles| :: roles[i];
    forall x | x in want
      ensures x in got
    {
      var i :| 0 <= i < |roles| && roles[i] == x;
      Decimal.ParseOfDecimal(x);
      assert StickyRow(user, Decimal.ToDecimal(x)) in after;
    }
    forall x | x in got
      ensures x in want
    {
      var row :| row in after && row.user == user && Decimal.ParseU64(row.role) == Some(x);
      assert row.role in RoleTexts(roles);
      var i :| 0 <= i < |roles| && Decimal.ToDecimal(roles[i]) == row.role;
      Decimal.ParseOfDecimal(roles[i]);
    }
  }

  /** Setting one user's roles does not change what any other user reads back. */
  lemma SetStickyRolesIsolated(rows: set<StickyRow>, user: UserId, roles: seq<RoleId>, other: UserId)
    requires other != user
    ensures GetStickyRoles(SetStickyRoles(rows, user, roles), other) == GetStickyRoles(rows, other)
  {
    var after := SetStickyRoles(rows, user, roles);
    assert forall row: StickyRow :: row.user == other ==> (row in after <==> row in rows);
  }

  /** An empty role list leaves the user with no rows at all. */
  lemma EmptyRolesClearUser(rows: set<StickyRow>, user: UserId)
    ensures forall row :: row in SetStickyRoles(rows, user, []) ==> row.user != user
    ensures GetStickyRoles(SetStickyRoles(rows, user, []), user) == {}
  {
    assert RoleTexts([]) == {};
  }

  // ---------------------------------------------------------------------------------------------
  // gib_seen: recently shown image ids, kept to the newest `gib.history` rows

  /** `gib_seen`: `INSERT OR REPLACE` (one row per id, fresh time), then eviction down to `history` rows. */
  method GibSeen(t: map<nat, Timed<Unit>>, id: nat, now: Time, history: nat) returns (r: map<nat, Timed<Unit>>)
    ensures |r| <= history
    ensures KeepsNewest(t[id := Timed(Unit, now)], r, history)
    ensures id in t ==> |r| <= |t|
    ensures history > 0 && AllOlderThan(t, now) ==> GibIsSeen(r, id) && r[id].time == now
  {
    r := Record(t, id, Unit, now, history);
  }

  /** `gib_is_seen`: whether a row with that id exists. */
  function GibIsSeen(t: map<nat, Timed<Unit>>, id: nat): bool {
    id in t
  }

  /** `gib_seen` followed by `gib_is_seen`, as the command uses them: the id just marked reads as seen
      while the history keeps a row and the id is strictly newest; any other id reads as seen only if it
      was seen before (eviction never invents rows); a zero history forgets everything. */
  method GibSeenThenIsSeen(t: map<nat, Timed<Unit>>, id: nat, now: Time, history: nat, probe: nat)
    returns (r: map<nat, Timed<Unit>>, idSeen: bool, probeSeen: bool)
    ensures history > 0 && AllOlderThan(t, now) ==> idSeen
    ensures probeSeen ==> probe == id || GibIsSeen(t, probe)
    ensures history == 0 ==> !idSeen && !probeSeen
    ensures |r| <= history
  {
    r := GibSeen(t, id, now, history);
    idSeen := GibIsSeen(r, id);
    probeSeen := GibIsSeen(r, probe);
  }

  // ---------------------------------------------------------------------------------------------
  // reddit_seen: ids already reported, never evicted

  /** `reddit_seen`: `INSERT OR IGNORE` of every id; existing rows are untouched and nothing is evicted. */
  function RedditSeen(t: set<string>, ids: seq<string>): (r: set<string>)
    ensures t <= r
    ensures forall i :: 0 <= i < |ids| ==> ids[i] in r
    ensures forall x :: x in r ==> x in t || x in ids
  {
    t + set i | 0 <= i < |ids| :: ids[i]
  }

  /** `reddit_contains_unseen`: whether some id of the batch has no row; an empty batch has none. */
  function RedditContainsUnseen(t: set<string>, ids: seq<string>): (b: bool)
    ensures b <==> exists i :: 0 <= i < |ids| && ids[i] !in t
  {
    if |ids| == 0 then false
    else ids[0] !in t || RedditContainsUnseen(t, ids[1..])
  }

  /** Marking a batch seen makes the same batch report nothing unseen. */
  lemma SeenBatchHasNoUnseen(t: set<string>, ids: seq<string>)
    ensures !RedditContainsUnseen(RedditSeen(t, ids), ids)
  {
  }
}

=== FILE: reddit.dfy ===
/** The Reddit poller's decisions: which notification classes a subreddit check reports, given the two
    fetched listings, with check-then-mark deduplication against the `reddit_seen` table; the
    notification tables; the reply-listing parser; and the guard in front of the polling thread.
    HTTP, OAuth and the thread itself are not modelled. */
module Reddit {
  import opened Base
  import Db
  import Decimal

  /** `RedditObject<RedditListing<RedditMessageish>>`: a kind tag and a listing. */
  datatype ListingObject = ListingObject(kind: string, data: Listing)

  /** `RedditListing<RedditMessageish>`. */
  datatype Listing = Listing(after: Option<string>, before: Option<string>, children: seq<Child>)

  /** `RedditObject<RedditMessageish>`: one entry of a listing. */
  datatype Child = Child(kind: string, data: Messageish)

  /** A modqueue item or modmail message: its id and its replies. */
  datatype Messageish = Messageish(id: string, replies: ListingObject)

  /** The empty listing, `RedditListing::default()`. */
  const EmptyListing: Listing := Listing(None, None, [])

  /** `FromStr` for a listing object: whatever the text, the default object (kind "Listing", no children).
      Reddit sends an empty string where a message has no replies. */
  function ParseListingObject(s: string): (r: ListingObject)
    ensures r.kind == "Listing" && r.data.children == [] && r.data.after.None? && r.data.before.None?
  {
    ListingObject("Listing", EmptyListing)
  }

  function Ids(children: seq<Child>): (ids: seq<string>)
    ensures |ids| == |children|
    ensures forall i :: 0 <= i < |children| ==> ids[i] == children[i].data.id
  {
    seq(|children|, i requires 0 <= i < |children| => children[i].data.id)
  }

  /** `contains_unseen`: the unseen test runs against the table as it was, then every id is marked seen. */
  function ContainsUnseen(seen: set<string>, listing: Listing): (r: (bool, set<string>))
    ensures r.0 <==> exists i :: 0 <= i < |listing.children| && listing.children[i].data.id !in seen
    ensures r.1 == seen + set i | 0 <= i < |listing.children| :: listing.children[i].data.id
  {
    var ids := Ids(listing.children);
    (Db.RedditContainsUnseen(seen, ids), Db.RedditSeen(seen, ids))
  }

  /** Asking twice about the same listing: the second answer is no. */
  lemma ContainsUnseenTwice(seen: set<string>, listing: Listing)
    ensures !ContainsUnseen(ContainsUnseen(seen, listing).1, listing).0
  {
  }

  /** The reply children of every inbox message, concatenated in inbox order (one level deep). */
  function FlattenReplies(messages: seq<Child>): seq<Child>
    decreases |messages|
  {
    if |messages| == 0 then []
    else messages[0].data.replies.data.children + FlattenReplies(messages[1..])
  }

  /** Flattening distributes over concatenation: the replies keep inbox order. */
  lemma {:induction false} FlattenAppend(a: seq<Child>, b: seq<Child>)
    ensures FlattenReplies(a + b) == FlattenReplies(a) + FlattenReplies(b)
    decreases |a|
  {
    if |a| > 0 {
      assert (a + b)[1..] == a[1..] + b;
      FlattenAppend(a[1..], b);
    } else {
      assert a + b == b;
    }
  }

  /** A child is among the flattened replies exactly when some inbox message lists it as a reply. */
  lemma {:induction false} FlattenMembership(messages: seq<Child>, c: Child)
    ensures c in FlattenReplies(messages) <==>
            exists k :: 0 <= k < |messages| && c in messages[k].data.replies.data.children
    decreases |messages|
  {
    if |messages| > 0 {
      FlattenMembership(messages[1..], c);
      if c in FlattenReplies(messages[1..]) {
        var k :| 0 <= k < |messages[1..]| && c in messages[1..][k].data.replies.data.children;
        assert c in messages[k + 1].data.replies.data.children;
      }
      if exists k :: 0 <= k < |messages| && c in messages[k].data.replies.data.children {
        var k :| 0 <= k < |messages| && c in messages[k].data.replies.data.children;
        if k > 0 {
          assert c in messages[1..][k - 1].data.replies.data.children;
        }
      }
    }
  }

  datatype NotificationClass = Modqueue | Modmail | ModmailReply

  datatype FetchError = FetchError(reason: string)

  /** All ids `check_sub` marks seen for one pair of listings. */
  function AllIds(modqueue: Listing, inbox: Listing): set<string> {
    (set i | 0 <= i < |modqueue.children| :: modqueue.children[i].data.id)
    + (set i | 0 <= i < |inbox.children| :: inbox.children[i].data.id)
    + (set c | c in FlattenReplies(inbox.children) :: c.data.id)
  }

  /** `check_sub`, with the two fetches as inputs: the modqueue check, then the inbox check, then the
      flattened replies (skipped when empty). A failed fetch aborts; ids marked before it stay marked. */
  function CheckSub(seen: set<string>, modqueue: Result<ListingObject, FetchError>,
                    inbox: Result<ListingObject, FetchError>)
    : (r: (Result<set<NotificationClass>, FetchError>, set<string>))
    ensures seen <= r.1
    ensures modqueue.Err? ==> r.0 == Err(modqueue.error) && r.1 == seen
    ensures modqueue.Ok? && inbox.Err? ==>
              r.0 == Err(inbox.error) && r.1 == ContainsUnseen(seen, modqueue.value.data).1
    ensures r.0.Ok? ==> (Modqueue in r.0.value <==> ContainsUnseen(seen, modqueue.value.data).0)
    ensures r.0.Ok? ==>
              var s1 := ContainsUnseen(seen, modqueue.value.data).1;
              (Modmail in r.0.value <==> ContainsUnseen(s1, inbox.value.data).0)
    ensures r.0.Ok? ==>
              var s2 := ContainsUnseen(ContainsUnseen(seen, modqueue.value.data).1, inbox.value.data).1;
              var replies := FlattenReplies(inbox.value.data.children);
              (ModmailReply in r.0.value <==> |replies| > 0 && ContainsUnseen(s2, Listing(None, None, replies)).0)
  {
    match modqueue
    case Err(e) => (Err(e), seen)
    case Ok(mq) =>
      var (newInQueue, s1) := ContainsUnseen(seen, mq.data);
      match inbox
      case Err(e) => (Err(e), s1)
      case Ok(ib) =>
        var (newMail, s2) := ContainsUnseen(s1, ib.data);
        var replies := Listing(None, None, FlattenReplies(ib.data.children));
        var (newReply, s3) := if |replies.children| == 0 then (false, s2) else ContainsUnseen(s2, replies);
        (Ok(Classes(newInQueue, newMail, newReply)), s3)
  }

  /** The set of classes `check_sub` reports from its three findings: each class present exactly when
      its check found something, and nothing else. */
  function Classes(newInQueue: bool, newMail: bool, newReply: bool): (out: set<NotificationClass>)
    ensures Modqueue in out <==> newInQueue
    ensures Modmail in out <==> newMail
    ensures ModmailReply in out <==> newReply
    ensures out <= {Modqueue, Modmail, ModmailReply}
  {
    (if newInQueue then {Modqueue} else {})
    + (if newMail then {Modmail} else {})
    + (if newReply then {ModmailReply} else {})
  }

  /** The ids of a sequence of children, as a set, are the ids of its elements. */
  lemma ChildIds(seen: set<string>, children: seq<Child>)
    ensures ContainsUnseen(seen, Listing(None, None, children)).1 == seen + set c | c in children :: c.data.id
  {
    var a := set i | 0 <= i < |children| :: children[i].data.id;
    var b := set c | c in children :: c.data.id;
    forall x | x in b ensures x in a {
      var c :| c in children && c.data.id == x;
      var i :| 0 <= i < |children| && children[i] == c;
    }
  }

  /** A successful check marks every id it looked at: the modqueue, the inbox and the replies. */
  lemma CheckSubMarksAll(seen: set<string>, mq: ListingObject, ib: ListingObject)
    ensures CheckSub(seen, Ok(mq), Ok(ib)).1 == seen + AllIds(mq.data, ib.data)
  {
    var s2 := ContainsUnseen(ContainsUnseen(seen, mq.data).1, ib.data).1;
    var replies := FlattenReplies(ib.data.children);
    ChildIds(s2, replies);
  }

  /** Which classes fire: each exactly when its listing has an id not yet marked at the moment it is
      checked (the modqueue against the table, the inbox after the modqueue ids, the replies after both). */
  lemma CheckSubReports(seen: set<string>, mq: ListingObject, ib: ListingObject)
    ensures CheckSub(seen, Ok(mq), Ok(ib)).0.Ok?
    ensures var out := CheckSub(seen, Ok(mq), Ok(ib)).0.value;
      && (Modqueue in out <==> exists i :: 0 <= i < |mq.data.children| && mq.data.children[i].data.id !in seen)
      && (Modmail in out <==>
            exists i :: 0 <= i < |ib.data.children| && ib.data.children[i].data.id !in ContainsUnseen(seen, mq.data).1)
      && (ModmailReply in out <==>
            var replies := FlattenReplies(ib.data.children);
            |replies| > 0 &&
            exists i :: 0 <= i < |replies| &&
              replies[i].data.id !in ContainsUnseen(ContainsUnseen(seen, mq.data).1, ib.data).1)
  {
  }

  /** Exactly-once: checking the same listings again reports nothing. */
  lemma CheckSubTwiceReportsNothing(seen: set<string>, mq: ListingObject, ib: ListingObject)
    ensures var after := CheckSub(seen, Ok(mq), Ok(ib)).1;
            CheckSub(after, Ok(mq), Ok(ib)).0 == Ok({})
  {
    var after := CheckSub(seen, Ok(mq), Ok(ib)).1;
    var replies := FlattenReplies(ib.data.children);
    forall i | 0 <= i < |replies|
      ensures replies[i].data.id in after
    {
      assert replies[i] in replies;
    }
  }

  /** A failed inbox fetch still marks the modqueue ids seen, so new modqueue items found in that
      round are never reported by a later one. */
  lemma InboxFailureLosesModqueue(seen: set<string>, mq: ListingObject, e: FetchError, ib: ListingObject)
    ensures var after := CheckSub(seen, Ok(mq), Err(e)).1;
            Modqueue !in CheckSub(after, Ok(mq), Ok(ib)).0.value
  {
  }

  /** The embed title of each class. */
  function Title(c: NotificationClass): string {
    match c
    case Modqueue => "New stuff in the modqueue"
    case Modmail => "New modmail"
    case ModmailReply => "New reply to modmail"
  }

  const UrlPrefix: string := "https://old.reddit.com/r/"
  const ModqueueSuffix: string := "/about/modqueue/"
  const InboxSuffix: string := "/about/message/inbox/"

  /** The link of each class: the subreddit's modqueue, or its modmail inbox for both modmail classes. */
  function Url(c: NotificationClass, sub: string): (u: string)
    ensures c.Modqueue? ==> u == UrlPrefix + sub + ModqueueSuffix
    ensures !c.Modqueue? ==> u == UrlPrefix + sub + InboxSuffix
  {
    match c
    case Modqueue => UrlPrefix + sub + ModqueueSuffix
    case _ => UrlPrefix + sub + InboxSuffix
  }

  /** The subreddit named by a notification link: the text between the prefix and the class's suffix. */
  function SubOfUrl(c: NotificationClass, u: string): Option<string> {
    var suffix := if c.Modqueue? then ModqueueSuffix else InboxSuffix;
    if |u| >= |UrlPrefix| + |suffix| && u[..|UrlPrefix|] == UrlPrefix && u[|u| - |suffix|..] == suffix
    then Some(u[|UrlPrefix|..|u| - |suffix|])
    else None
  }

  /** The link names the subreddit it was made for, so links of different subreddits differ. */
  lemma UrlRoundTrip(c: NotificationClass, sub: string)
    ensures SubOfUrl(c, Url(c, sub)) == Some(sub)
  {
    var u := Url(c, sub);
    var suffix := if c.Modqueue? then ModqueueSuffix else InboxSuffix;
    assert u == UrlPrefix + sub + suffix;
    assert u[..|UrlPrefix|] == UrlPrefix;
    assert u[|u| - |suffix|..] == suffix;
    assert u[|UrlPrefix|..|u| - |suffix|] == sub;
  }

  /** The platform's colour constants, as 24-bit RGB. */
  const BLUE: nat := 0x3498DB
  const RED: nat := 0xE74C3C

  function Colour(c: NotificationClass): nat {
    if c.Modqueue? then BLUE else RED
  }

  /** The two modmail classes share link and colour and differ only in title. */
  lemma ModmailClassesShareLinkAndColour(sub: string)
    ensures Url(Modmail, sub) == Url(ModmailReply, sub) && Colour(Modmail) == Colour(ModmailReply)
    ensures Url(Modqueue, sub) != Url(Modmail, sub) && Colour(Modqueue) != Colour(Modmail)
    ensures Title(Modmail) != Title(ModmailReply)
  {
    assert Url(Modqueue, sub)[|UrlPrefix + sub| + 8] == 'o';
    assert Url(Modmail, sub)[|UrlPrefix + sub| + 8] == 'e';
  }

  datatype SpawnError = Disabled | IntervalTooShort

  /** The interval in seconds, `60 * check_interval` computed in `u64` (wrapping, as a release build does). */
  function IntervalSeconds(minutes: nat): (secs: nat)
    ensures secs < Decimal.U64_LIMIT
    ensures 60 * minutes < Decimal.U64_LIMIT ==> secs == 60 * minutes
    ensures 60 * minutes >= Decimal.U64_LIMIT ==> secs < 60 * minutes && (60 * minutes - secs) % Decimal.U64_LIMIT == 0
  {
    (60 * minutes) % Decimal.U64_LIMIT
  }

  /** `spawn`'s guards: refuse when Reddit is disabled, or when the interval is under a minute. */
  function Spawn(enabled: bool, checkInterval: nat): (r: Result<nat, SpawnError>)
    requires checkInterval < Decimal.U64_LIMIT
    ensures !enabled ==> r == Err(Disabled)
    ensures enabled ==> (r.Ok? <==> IntervalSeconds(checkInterval) >= 60)
    ensures enabled && 60 * checkInterval < Decimal.U64_LIMIT ==> (r == Err(IntervalTooShort) <==> checkInterval == 0)
    ensures r.Ok? && 60 * checkInterval < Decimal.U64_LIMIT ==> r.value == 60 * checkInterval
  {
    if !enabled then Err(Disabled)
    else
      var secs := IntervalSeconds(checkInterval);
      if secs < 60 then Err(IntervalTooShort) else Ok(secs)
  }

  /** The wrap lets an enormous configured interval through as if it were zero: 60 * 2^62 minutes is
      exactly 15 * 2^64 seconds, which wraps to 0, so the poller refuses to start. */
  lemma HugeIntervalWrapsToZero()
    ensures IntervalSeconds(0x4000_0000_0000_0000) == 0
    ensures Spawn(true, 0x4000_0000_0000_0000) == Err(IntervalTooShort)
  {
    assert 60 * 0x4000_0000_0000_0000 == 15 * Decimal.U64_LIMIT;
  }
}

=== FILE: types.dfy ===
/** The chat platform's records, reduced to the fields the bookkeeping reads, and the bot's configuration
    values that the bookkeeping consults. */
module Types {
  import opened Base

  type UserId = nat
  type RoleId = nat
  type ChannelId = nat
  type GuildId = nat
  type MessageId = nat

  /** A logical timestamp (an edit time). */
  type Timestamp = nat

  datatype Attachment = Attachment(id: nat, proxyUrl: string)

  datatype User = User(id: UserId, name: string, discriminator: nat)

  /** A chat message as delivered by the platform. */
  datatype Message = Message(
    id: MessageId,
    channelId: ChannelId,
    author: User,
    mentions: seq<UserId>,
    content: string,
    attachments: seq<Attachment>,
    editedTimestamp: Option<Timestamp>)

  /** A guild member: the user, an optional nickname and the roles held. */
  datatype Member = Member(guildId: GuildId, user: User, nick: Option<string>, roles: seq<RoleId>)

  /** The `[discord]` configuration values the handlers read. */
  datatype DiscordConfig = DiscordConfig(
    deletedMsgCache: nat,
    logChannels: set<ChannelId>,
    channelBlacklist: set<ChannelId>,
    channelWhitelist: set<ChannelId>,
    stickyRoles: set<RoleId>)
}
